=== FILE: README.md ===
# doc-ai-assistant question answering core, in Dafny

This project models the retrieval core of the `qa` package of
doc-ai-assistant and proves properties of it. That core is what sits between
the document readers and the machine-learning models:

- `reprocess` normalises the whitespace of extracted text.
- `text_to_chunks` cuts pages into quoted passages of `word_length` words.
- `get_dataset_hash` fingerprints a dataset folder. The fingerprint is the
  key of the embeddings cache.
- `BaseQA.__init__` and `get_source_embeddings` name, load or compute and
  store the embeddings table of a dataset.
- `strings_ranked_by_relatedness` appears both as a free function and on
  `BaseQA`. It scores every passage against the query and returns the
  `top_n` best, using a stable descending sort.
- `get_correct_answer` and the token join in `answer` turn a WordPiece token
  span back into text.

The modules follow the program:

| module | file | models |
|---|---|---|
| `Seqs` | seqs.dfy | flattening, Python's `[:n]` and `[a:b]` slices, fixed-size grouping |
| `Text` | text.dfy | Python's whitespace class, `split(' ')`, `split()`, `' '.join`, `strip` |
| `Results` | results.dfy | success or failure of an operation that raises in Python |
| `Normalizer` | normalizer.dfy | `reprocess` |
| `Chunker` | chunker.dfy | `text_to_chunks` |
| `DatasetHash` | dataset_hash.dfy | `get_dataset_hash`, `get_folder_hash`, `get_file_hash` |
| `Ranking` | ranking.dfy | `strings_ranked_by_relatedness` |
| `Answer` | answer.dfy | `get_correct_answer` and the span join of `answer` |
| `EmbeddingCache` | embedding_cache.dfy | `BaseQA.__init__`, `get_source_embeddings`, `BaseQA.strings_ranked_by_relatedness` |

Several things are parameters of the model because their code is outside it:

- the digest (MD5 by default);
- the folder found at the dataset path;
- `read_dataset`, the embedder and the query embedder;
- the relatedness function;
- the CSV writer, and the CSV reader with its `from_np_array` converter.

The file system under the embeddings root is a map from paths to stored
files. Python exceptions become a `Failure` of the `Result` type. These are:

- `range` with step 0 in `text_to_chunks`;
- unpacking `zip()` of no rows in the ranking.

## Behaviour worth noting

- No chunk carries a file-name label: a chunk is the group's words joined, stripped and quoted, nothing more (qa/utils.py:116-117).
- `start_page` is never read by `text_to_chunks` (qa/utils.py:90-119).
- A zero `word_length` makes `range` raise (qa/utils.py:107); `TextToChunks` returns `Failure(ZeroWordLength)` for it. A negative `word_length` makes every range empty, so there are no chunks.
- A token span whose end index comes before its start index selects no tokens, so `answer` returns `""` (qa/qa.py:116-117).
- The answer is not stripped: a plain first word puts a space in front of it (qa/qa.py:100-101).
- The dataset fingerprint depends on the order of files and folders in the listing. A file `d` folders deep is fed to the digest `2^d` times, because `get_folder_hash` iterates `os.walk`, which already descends, and also calls itself on every sub-folder (qa/utils.py:180-186).

## Model

| member | source | states |
|---|---|---|
| Normalizer.Reprocess | qa/utils.py:16-30 | the result holds no newline and no tab; its only whitespace character is `' '`, never two in a row; deleting whitespace from input and result gives the same string |
| Normalizer.Replace | qa/utils.py:27-28 | after `str.replace` the replaced character is gone unless the replacement contains it, and a string without it comes back unchanged |
| Normalizer.ReplaceAppend | qa/utils.py:27-28 | `str.replace` works occurrence by occurrence: replacing in `a + b` is replacing in `a` followed by replacing in `b`, and a single character becomes the replacement exactly when it is the replaced character. Together these fix the output on every input |
| Normalizer.ReplaceProperties | qa/utils.py:27-28 | every character of `str.replace` output comes from the input or the replacement; replacing a whitespace character by whitespace keeps the non-whitespace characters |
| Normalizer.Collapse | qa/utils.py:29 | `re.sub('\s+', ' ', ·)` gives normal text with the same non-whitespace characters, and starts and ends with whitespace exactly when the input does (runs are collapsed, not trimmed) |
| Normalizer.CollapseMatchesSplitJoin | qa/utils.py:29 | the run collapse equals an independent definition: the `str.split()` words joined by one space, with one space kept in front or behind when the input starts or ends with whitespace |
| Normalizer.ReprocessBySplit | qa/utils.py:27-29 | `reprocess(t)` equals the split-and-join collapse of `t` with its tabs deleted, so the output is fixed on every input: the words of the tab-free text, one space between neighbours, and one space in front or behind when that text starts or ends with whitespace |
| Normalizer.ReprocessIdempotent | qa/utils.py:27-29 | `reprocess(reprocess(t)) == reprocess(t)` |
| Normalizer.ReprocessTabExample | qa/utils.py:28 | tabs are deleted: `"a\tb"` gives `"ab"` |
| Normalizer.ReprocessNewlineExample | qa/utils.py:27 | a newline becomes a space: `"a\nb"` gives `"a b"` |
| Normalizer.ReprocessRunsExample | qa/utils.py:27-29 | leading and trailing runs become one space and are not trimmed: `" \n\ta\n"` gives `" a "` |
| Text.Split | qa/utils.py:103 | `split(' ')` gives at least one piece, no piece holds a space, and joining the pieces with `' '` gives the text back |
| Text.SplitOfJoin | qa/utils.py:103 | the converse round trip: `split(' ')` of space-free pieces joined by `' '` gives the pieces back |
| Text.JoinContent | qa/utils.py:116 | `' '.join` keeps the words in order with one separator between neighbours: its length is the words' total plus one per gap, and its non-whitespace characters are the words' |
| Text.Strip | qa/utils.py:116 | `strip()` leaves no whitespace at either end, keeps every non-whitespace character, and returns a string that already starts and ends with a non-space (or is empty) unchanged |
| Text.StripSlice | qa/utils.py:116 | `strip()` removes exactly the two end runs: its result is a slice of the input with only whitespace before and after it, so inner whitespace is kept |
| Text.JoinEnds | qa/utils.py:116 | `' '.join` of non-empty words starts with the first word's first character and ends with the last word's last character |
| Text.SplitWsWords | qa/qa.py:96 | the words of `split()` are non-empty and whitespace-free, hold the text's non-whitespace characters in order, and there are none exactly when the text is all whitespace |
| Text.SplitWsOfJoin | qa/qa.py:116 | `split()` of non-empty, whitespace-free tokens joined by single spaces gives the tokens back |
| Chunker.Cut | qa/utils.py:107-115 | cutting one unit's words into groups of `word_length` keeps every word in order; the last unit emits every group, the others emit only full groups and carry a tail shorter than `word_length` |
| Chunker.GroupsFlatten | qa/utils.py:106-115 | over all units, the emitted groups are the carried words followed by every word of every unit, in order: tails are moved into the next unit, never dropped or duplicated |
| Chunker.GroupsPacked | qa/utils.py:107-115 | every emitted group holds between 1 and `word_length` words, and all but the last hold exactly `word_length` |
| Chunker.WordGroupsSpec | qa/utils.py:103-118 | the groups concatenate to the `split(' ')` words of all texts, are packed, and number ceil(N / `word_length`) for N words |
| Chunker.Quote | qa/utils.py:116-117 | a chunk begins and ends with `"`, has no whitespace just inside either quote, and keeps its group's non-whitespace characters in order |
| Chunker.QuoteSpacing | qa/utils.py:116-117 | when the joined group already starts and ends with a non-space, `strip()` changes nothing and the chunk is exactly `'"' + ' '.join(group) + '"'` |
| Chunker.QuoteWords | qa/utils.py:116-117 | for a group of non-empty whitespace-free words, the chunk without its two quotes splits on `' '` back into the group |
| Chunker.TextToChunks | qa/utils.py:90-119 | it fails exactly for a non-empty input with `word_length` 0; a negative `word_length` gives no chunks; every chunk starts and ends with `"`; there are ceil(N / `word_length`) chunks |
| Chunker.TextToChunksSpec | qa/utils.py:90-119 | for a positive `word_length`, the call succeeds and the chunks are the quoted word groups, one per group and in order, whatever `start_page` is |
| Chunker.TextToChunksPairExample | qa/utils.py:103-118 | `["Hello, World!", "Hello, World!"]` at `word_length` 2 gives two chunks `"Hello, World!"` |
| Chunker.TextToChunksCarryExample | qa/utils.py:109-118 | the same texts at `word_length` 256 give one chunk `"Hello, World! Hello, World!"`, because the first page's short tail is carried into the second |
| DatasetHash.FolderFeedsTwice | qa/utils.py:180-186 | `get_folder_hash` feeds the folder's own files, then every sub-folder's feeds, then every sub-folder's feeds again |
| DatasetHash.FedCopies | qa/utils.py:168-186 | a file reached through `d` sub-folders is fed exactly `2^d` times, and a location holding no file is never fed |
| DatasetHash.NestedFileFedTwice | qa/utils.py:180-186 | one file in one sub-folder puts its bytes into the digest twice |
| DatasetHash.Walk | qa/utils.py:180 | `os.walk` visits the top folder first, and no folder it visits is larger than the top |
| DatasetHash.FileFeeds | qa/utils.py:181-183 | a folder's files are fed one per listing entry, in listing order, each with its own bytes |
| DatasetHash.DatasetStreamTwice | qa/utils.py:152-186 | the dataset stream is the top folder's file bytes followed by the sub-folders' stream twice |
| DatasetHash.GetDatasetHash | qa/utils.py:152-166 | the checksum is the digest of the top folder's file bytes followed by the sub-folders' bytes twice |
| DatasetHash.RenamedDatasetSameHash | qa/utils.py:180-186 | names are never fed: renaming files and folders leaves the checksum unchanged |
| DatasetHash.EmptyFileSameHash | qa/utils.py:180-202 | adding an empty file to any folder of the dataset, at any position of its listing, leaves the checksum unchanged |
| DatasetHash.GetFileHash | qa/utils.py:188-202 | the 4096-byte read loop feeds exactly the file's bytes in order; the blocks join to the file, all but the last are full, and there are ceil(size / 4096) of them |
| DatasetHash.FeedDataset | qa/utils.py:164-166 | feeding every file through the block loop gives the digest exactly the dataset stream |
| Ranking.RankOrder | qa/utils.py:148 | the sorted order is a permutation of the rows in which every earlier row has a higher score, or the same score and an earlier original position |
| Ranking.RankOrderIsStableSort | qa/utils.py:148 | any permutation of the rows ordered by descending score with ties in original order is the one the sort produces |
| Ranking.TopRows | qa/utils.py:150 | `[:top_n]` keeps Python's slice length of distinct rows in rank order, and every kept row ranks ahead of every dropped row |
| Ranking.Scores | qa/utils.py:144-147 | one score per row, in row order, each the relatedness of the query embedding and that row's embedding |
| Ranking.StringsRankedByRelatedness | qa/utils.py:121-150 | no rows makes the unpacking fail; otherwise texts and scores have the slice length, scores are non-increasing, and each pair is a kept row's text and its relatedness to the query |
| Ranking.StableExampleOrder | qa/utils.py:148 | scores `[1, 2, 1]` sort to rows `[1, 0, 2]`: the tied rows keep their order under `reverse=True` |
| Ranking.RankingExample | qa/utils.py:142-150 | rows `a`, `b`, `c` scored 1, 2, 1 give `(["b", "a"], [2, 1])` for `top_n` 2 and for `top_n` -1 |
| Answer.DetokenizeContent | qa/qa.py:96-101 | deleting whitespace from the glued words gives the words with a leading `##` removed, one after the other |
| Answer.GetCorrectAnswer | qa/qa.py:94-102 | the answer's non-whitespace characters come back in order without the `##` markers, and an all-whitespace answer gives `""` (the spacing rule: `Answer.GetCorrectAnswerAppend` with `Answer.GetCorrectAnswerOfWords`) |
| Answer.GetCorrectAnswerOfWords | qa/qa.py:96 | only the words of `answer.split()` matter: the answer equals the answer of those words joined by single spaces |
| Answer.GetCorrectAnswerOfTokens | qa/qa.py:116-117 | for tokens without whitespace, `get_correct_answer(' '.join(tokens))` is the tokens glued word by word |
| Answer.GetCorrectAnswerAppend | qa/qa.py:94-102 | word by word on joined tokens: the answer of `a + b` is the answer of `a` followed by the answer of `b`; one token gives `token[2:]` for a continuation and `' ' + token` otherwise |
| Answer.GetCorrectAnswerPlain | qa/qa.py:94-102 | an answer without `##` continuations comes back as its words joined by single spaces behind one leading space; an all-whitespace answer gives `""` |
| Answer.GetCorrectAnswerEmpty | qa/qa.py:94-102 | the result is empty exactly when every word of `answer.split()` is a bare `##` |
| Answer.DetokenizeEmpty | qa/qa.py:97-101 | the glued words are empty exactly when every word is `##` |
| Answer.Detokenize | qa/qa.py:96-101 | each word adds its length plus one for the space of a plain word, or minus two for a `##` marker; a plain first word makes the result start with a space, which nothing trims (the spacing rule itself is `Answer.DetokenizeAppend`) |
| Answer.DetokenizeAppend | qa/qa.py:96-101 | the loop works word by word: gluing `a + b` is gluing `a` then `b`, and one word adds `word[2:]` for a `##` continuation and `' ' + word` otherwise, so there is one space before each plain word and none before a continuation |
| Answer.DetokenizePlain | qa/qa.py:96-101 | without continuations the glued words are `' ' + ' '.join(words)`: exactly one space before every word |
| Answer.AnswerFromSpan | qa/qa.py:116-117 | an end index before the start index gives `""`; for tokens without whitespace, joining the span with spaces and splitting it again cancels out, and the answer is the span glued |
| Answer.AnswerExample | qa/qa.py:94-102 | `get_correct_answer("What ##s up")` is `" Whats up"` |
| Answer.SpanExample | qa/qa.py:116-117 | tokens `What`, `##s`, `up` from 0 to 2 give `" Whats up"` |
| Answer.MarkerExample | qa/qa.py:98-99 | a bare `##` token contributes the empty string |
| EmbeddingCache.PathJoin | qa/qa.py:30 | `os.path.join` ends with the relative name, behind the root and one separator; an absolute name replaces the root |
| EmbeddingCache.EmbeddingsFile | qa/qa.py:30 | the embeddings file is `<checksum>.csv` in the folder `EMBEDDINGS_ROOT`, or the checksum's own path plus `.csv` when it is absolute |
| EmbeddingCache.NewQa | qa/qa.py:27-30 | the constructor keeps the dataset path, sets its checksum to `get_dataset_hash` of the folder found there, and names the embeddings file after that checksum |
| EmbeddingCache.EmbeddingsFileInjective | qa/qa.py:29-30 | two checksums give the same `<checksum>.csv` file exactly when they are equal |
| EmbeddingCache.GetSourceEmbeddings | qa/qa.py:83-92 | an existing file is loaded and nothing changes; otherwise the dataset is embedded, stored under its file and returned; only that file is touched |
| EmbeddingCache.HitIgnoresEmbedder | qa/qa.py:84-86 | on a hit the dataset reader and the embedder are not used |
| EmbeddingCache.OtherFilesUnchanged | qa/qa.py:88-90 | a lookup leaves every other file as it was, present or absent |
| EmbeddingCache.SecondLookupHits | qa/qa.py:83-92 | a second lookup is a hit: the embedder runs at most once over two lookups, the files do not change, and the second table is the first one read back from its CSV |
| EmbeddingCache.LookupIdempotent | qa/qa.py:83-92 | when the CSV round trip is faithful, two lookups return what one does |
| EmbeddingCache.RenamedDatasetSharesEntry | qa/qa.py:27-30 | a renamed copy of a dataset gets the same embeddings file, so after one is looked up the other is a hit |
| EmbeddingCache.EmptyFileSharesEntry | qa/qa.py:27-30 | adding an empty file anywhere in a dataset keeps its embeddings file |
| EmbeddingCache.DistinctChecksumsIndependent | qa/qa.py:29-30 | looking up one dataset never touches the file of a dataset with a different checksum |
| EmbeddingCache.RankFromCache | qa/qa.py:41-67 | `BaseQA.strings_ranked_by_relatedness` fails exactly when the table `get_source_embeddings` gives is empty; otherwise it returns the texts of the `top_n` best rows of that table with their relatedness, scores never increasing, and leaves the files as the lookup left them |
| EmbeddingCache.RankTwiceSame | qa/qa.py:41-67 | with a faithful CSV round trip, asking twice returns the same ranking and changes nothing more |

## Left out

- Whitespace is space, tab, newline, carriage return, vertical tab and form feed. Python's `\s`, `str.split()` and `str.strip()` also treat the ASCII separators `\x1c`, `\x1d`, `\x1e` and `\x1f`, and other Unicode spaces such as `\x85` and `\xa0`, as whitespace.
- The file readers `docx_to_text`, `pdf_to_text` and `txt_to_lines` and everything in the analyzer package are file I/O over third-party parsers.
- `ut.read_dataset` and `ut.from_np_array` are called in qa/qa.py but defined nowhere in qa/utils.py. Both are parameters.
- The embedders in qa/embedder.py wrap SentenceTransformer and pandas. They are parameters. `HuggingFaceEmbedder()` is constructed without the `texts` argument its constructor needs, and that construction is not modelled.
- Tokenisation, the BERT model call and `torch.argmax` in `answer` are opaque model calls. The tokens and the two indices are inputs of `AnswerFromSpan`.
- The `print(strings)` in `answer` is output only.
- Cosine relatedness is floating point. The relatedness function is a parameter, with scores as reals.
- MD5 and `hexdigest` are a parameter of `GetDatasetHash`. The model relies on one property of the digest: several `update` calls digest the same as one call on the concatenated bytes.
- `os.walk` lists files and folders in an order the operating system chooses. The model takes that order as given in the folder datatype. Symbolic links, unreadable files and I/O errors are left out.
- The CSV format, pandas and the embedding-column converter are parameters (`save` and `load`). Whether the round trip is faithful is a premise of the lemmas that need it.
- EmbeddingCache.PathJoin: models POSIX `posixpath.join`. On Windows `os.path.join` is `ntpath.join`, which also treats a backslash as a separator and handles drive letters. That variant is not modelled.
- `settings.EMBEDDINGS_ROOT` is a parameter (`root`). settings/__init__.py imports it from a development, production or testing module; none of those is part of this model.
- EmbeddingCache.GetSourceEmbeddings: `embed` is a parameter that returns a table of text and embedding rows. The real `HuggingFaceEmbedder.embed` returns the bare array of `self.model.encode(texts)` (qa/embedder.py:108-110). The table is built by `BaseEmbedder.get_dataframe` (qa/embedder.py:64-77), which `get_source_embeddings` does not call. On a cache miss the code as written would therefore call `to_csv` on an array (qa/qa.py:88-90), raise `AttributeError` and store nothing. That failure is not modelled: the model takes the embedder's output to be the table `get_dataframe` would build.
- DatasetHash.Walk: the contract states only that the top folder comes first and that no visited folder is larger than it. The full top-down order is the definition, and `FolderFeedsTwice` and `FedCopies` state its effect on the stream.
- Concurrent lookups and partially written files are left out. The model is sequential, like the code.
- DatasetHash.GetDatasetHash: the digest is an arbitrary function, so no lemma says different streams give different checksums.
- Chunker.TextToChunks: states the chunk count and the quoting, but not the chunk contents. `Chunker.TextToChunksSpec` relates each chunk to its word group.

=== FILE: answer.dfy ===
/** Answer reconstruction (`HuggingFaceQA.get_correct_answer` and the token
    join in `answer`, qa/qa.py): the answer tokens are joined with spaces,
    split back on whitespace, and glued together WordPiece style: a word
    starting with `##` continues the previous word without the marker,
    every other word is appended after one space. */
module Answer {
  import opened Seqs
  import opened Text

  /** `word[0:2] == '##'`: a sub-word continuation. */
  predicate IsContinuation(w: string)
  {
    |w| >= 2 && w[0] == '#' && w[1] == '#'
  }

  /** The characters of the word that reach the answer. */
  function Stem(w: string): (r: string)
    ensures IsContinuation(w) ==> |r| == |w| - 2
    ensures !IsContinuation(w) ==> r == w
  {
    if IsContinuation(w) then w[2..] else w
  }

  /** What one word appends to the answer. */
  function Piece(w: string): string
  {
    if IsContinuation(w) then w[2..] else " " + w
  }

  /** The loop of `get_correct_answer` over the words. Every word adds
      its `PieceLength`, and a plain first word makes the answer start with
      the space put before it: the result is never stripped. */
  function Detokenize(words: seq<string>): (r: string)
    ensures |r| == TotalLength(words)
    ensures |words| > 0 && !IsContinuation(words[0]) ==> |r| > 0 && r[0] == ' '
  {
    if |words| == 0 then "" else Piece(words[0]) + Detokenize(words[1..])
  }

  /** `get_correct_answer(answer)`: the words of `answer.split()`, glued.
      The answer's non-whitespace characters come back in order with the
      `##` markers removed, and an all-whitespace answer gives `""`. */
  function GetCorrectAnswer(answer: string): (r: string)
    ensures RemoveWs(r) == Flatten(Stems(SplitWs(answer)))
    ensures AllSpace(answer) ==> r == ""
  {
    SplitWsWords(answer);
    DetokenizeContent(SplitWs(answer));
    Detokenize(SplitWs(answer))
  }

  function Stems(words: seq<string>): (r: seq<string>)
    ensures |r| == |words| && forall k | 0 <= k < |words| :: r[k] == Stem(words[k])
  {
    if |words| == 0 then [] else [Stem(words[0])] + Stems(words[1..])
  }

  /** How many characters one word adds: its length plus one for the space
      of a plain word, minus two for the marker of a continuation. */
  function PieceLength(w: string): int
  {
    if IsContinuation(w) then |w| - 2 else |w| + 1
  }

  function TotalLength(words: seq<string>): int
  {
    if |words| == 0 then 0 else PieceLength(words[0]) + TotalLength(words[1..])
  }

  /** Deleting the whitespace from the glued answer leaves the word stems
      one after the other. */
  lemma {:induction false} DetokenizeContent(words: seq<string>)
    requires forall k | 0 <= k < |words| :: NoSpace(words[k])
    ensures RemoveWs(Detokenize(words)) == Flatten(Stems(words))
  {
    if |words| > 0 {
      var w := words[0];
      DetokenizeContent(words[1..]);
      RemoveWsAppend(Piece(w), Detokenize(words[1..]));
      assert RemoveWs(Piece(w)) == Stem(w) by {
        if IsContinuation(w) {
          assert forall k | 0 <= k < |w[2..]| :: w[2..][k] == w[k + 2];
          RemoveWsOfNoSpace(w[2..]);
        } else {
          RemoveWsAppend(" ", w);
          RemoveWsOfNoSpace(w);
        }
      }
      FlattenCons(Stem(w), Stems(words[1..]));
      assert Stems(words) == [Stem(w)] + Stems(words[1..]);
    }
  }

  /** The loop works word by word: gluing `a + b` is gluing `a` and then
      gluing `b`, and a single word adds `w[2:]` when it is a `##`
      continuation and `' ' + w` otherwise. Together these fix the result
      on every list of words. */
  lemma {:induction false} DetokenizeAppend(a: seq<string>, b: seq<string>)
    ensures Detokenize(a + b) == Detokenize(a) + Detokenize(b)
    ensures |a| == 1 ==> Detokenize(a) == (if IsContinuation(a[0]) then a[0][2..] else " " + a[0])
    decreases |a|
  {
    if |a| == 0 {
      assert a + b == b;
    } else {
      var head := Piece(a[0]);
      assert (a + b)[0] == a[0];
      assert (a + b)[1..] == a[1..] + b;
      DetokenizeAppend(a[1..], b);
      calc {
        Detokenize(a + b);
        head + Detokenize(a[1..] + b);
        head + (Detokenize(a[1..]) + Detokenize(b));
        { AppendAssoc(head, Detokenize(a[1..]), Detokenize(b)); }
        (head + Detokenize(a[1..])) + Detokenize(b);
        Detokenize(a) + Detokenize(b);
      }
      if |a| == 1 {
        assert a[1..] == [];
      }
    }
  }

  /** Without continuations the loop puts exactly one space before every
      word: the result is the words joined by single spaces, behind one
      leading space. */
  lemma {:induction false} DetokenizePlain(words: seq<string>)
    requires |words| > 0
    requires forall k | 0 <= k < |words| :: !IsContinuation(words[k])
    ensures Detokenize(words) == " " + Join(words, " ")
    decreases |words|
  {
    var w := words[0];
    if |words| == 1 {
      assert Detokenize(words[1..]) == "";
    } else {
      var rest := words[1..];
      assert forall k | 0 <= k < |rest| :: rest[k] == words[k + 1];
      DetokenizePlain(rest);
      var j := Join(rest, " ");
      calc {
        Detokenize(words);
        (" " + w) + (" " + j);
        { AppendAssoc(" " + w, " ", j); }
        ((" " + w) + " ") + j;
        " " + (w + " " + j);
        " " + Join(words, " ");
      }
    }
  }

  /** For tokens without whitespace, the answer of their join with single
      spaces is the tokens glued: the split gives the tokens back. */
  lemma {:induction false} GetCorrectAnswerOfTokens(tokens: seq<string>)
    requires WellFormed(tokens)
    ensures GetCorrectAnswer(Join(tokens, " ")) == Detokenize(tokens)
  {
    SplitWsOfJoin(tokens);
  }

  /** Only the words of the answer matter, not the whitespace between
      them: the answer equals the answer of its `split()` words joined by
      single spaces. */
  lemma {:induction false} GetCorrectAnswerOfWords(answer: string)
    ensures GetCorrectAnswer(answer) == GetCorrectAnswer(Join(SplitWs(answer), " "))
  {
    SplitWsWords(answer);
    GetCorrectAnswerOfTokens(SplitWs(answer));
  }

  /** `get_correct_answer` word by word: for tokens without whitespace,
      the answer of `a + b` joined is the answer of `a` followed by the
      answer of `b`, and a single token gives its stem for a continuation
      and the token after one space otherwise. */
  lemma {:induction false} GetCorrectAnswerAppend(a: seq<string>, b: seq<string>)
    requires WellFormed(a) && WellFormed(b)
    ensures GetCorrectAnswer(Join(a + b, " ")) == GetCorrectAnswer(Join(a, " ")) + GetCorrectAnswer(Join(b, " "))
    ensures |a| == 1 ==> GetCorrectAnswer(a[0]) == (if IsContinuation(a[0]) then a[0][2..] else " " + a[0])
  {
    assert WellFormed(a + b) by {
      forall k | 0 <= k < |a + b| ensures |(a + b)[k]| > 0 && NoSpace((a + b)[k]) {
        if k < |a| {
          assert (a + b)[k] == a[k];
        } else {
          assert (a + b)[k] == b[k - |a|];
        }
      }
    }
    GetCorrectAnswerOfTokens(a + b);
    GetCorrectAnswerOfTokens(a);
    GetCorrectAnswerOfTokens(b);
    DetokenizeAppend(a, b);
  }

  /** An answer without `##` continuations comes out as its words joined by
      single spaces, behind one leading space that is never stripped; an
      all-whitespace answer gives `""`. */
  lemma {:induction false} GetCorrectAnswerPlain(answer: string)
    requires forall k | 0 <= k < |SplitWs(answer)| :: !IsContinuation(SplitWs(answer)[k])
    ensures GetCorrectAnswer(answer) == (if AllSpace(answer) then "" else " " + Join(SplitWs(answer), " "))
  {
    SplitWsWords(answer);
    if !AllSpace(answer) {
      DetokenizePlain(SplitWs(answer));
    }
  }

  /** The answer is empty exactly when every word is a bare `##`. */
  lemma {:induction false} GetCorrectAnswerEmpty(answer: string)
    ensures GetCorrectAnswer(answer) == "" <==> forall k | 0 <= k < |SplitWs(answer)| :: SplitWs(answer)[k] == "##"
  {
    SplitWsWords(answer);
    DetokenizeEmpty(SplitWs(answer));
  }

  /** Only bare `##` markers add nothing. */
  lemma {:induction false} DetokenizeEmpty(words: seq<string>)
    requires forall k | 0 <= k < |words| :: |words[k]| > 0
    ensures Detokenize(words) == "" <==> forall k | 0 <= k < |words| :: words[k] == "##"
  {
    if |words| > 0 {
      var w := words[0];
      DetokenizeEmpty(words[1..]);
      assert Piece(w) == "" <==> w == "##" by {
        if w == "##" {
          assert IsContinuation(w);
        }
        if IsContinuation(w) && |w| == 2 {
          assert w == [w[0], w[1]];
        }
      }
      assert (forall k | 0 <= k < |words| :: words[k] == "##")
             <==> w == "##" && forall k | 0 <= k < |words| - 1 :: words[1..][k] == "##";
    }
  }

  /** Tokens as a tokenizer produces them: non-empty and whitespace-free. */
  predicate WellFormed(tokens: seq<string>)
  {
    forall k | 0 <= k < |tokens| :: |tokens[k]| > 0 && NoSpace(tokens[k])
  }

  /** The tail of `answer`: the tokens from the predicted start position to
      the predicted end position inclusive (`tokens[start:end+1]`), joined
      with single spaces and passed to `get_correct_answer`. An end before
      the start selects nothing; for well-formed tokens, joining and
      splitting again cancel out and the answer is the glued span. */
  function AnswerFromSpan(tokens: seq<string>, start: nat, end: nat): (r: string)
    ensures start > end ==> r == ""
    ensures WellFormed(tokens) ==> r == Detokenize(Slice(tokens, start, end + 1))
  {
    var span := Slice(tokens, start, end + 1);
    if WellFormed(tokens) then
      SliceWellFormed(tokens, start, end + 1);
      SplitWsOfJoin(span);
      GetCorrectAnswer(Join(span, " "))
    else
      GetCorrectAnswer(Join(span, " "))
  }

  lemma {:induction false} SliceWellFormed(tokens: seq<string>, start: nat, stop: nat)
    requires WellFormed(tokens)
    ensures WellFormed(Slice(tokens, start, stop))
  {
    var lo := Min(start, |tokens|);
    var hi := Max(Min(stop, |tokens|), lo);
    var span := Slice(tokens, start, stop);
    assert span == tokens[lo..hi];
    forall k | 0 <= k < |span| ensures |span[k]| > 0 && NoSpace(span[k]) {
      assert span[k] == tokens[lo + k];
    }
  }

  /** `["What", "##s", "up"]` from 0 to 2 glue to `" Whats up"`: the
      continuation joins the word before it without a space. */
  lemma SpanExample(tokens: seq<string>)
    requires tokens == ["What", "##s", "up"]
    ensures AnswerFromSpan(tokens, 0, 2) == " Whats up"
  {
    assert WellFormed(tokens) by {
      assert NoSpace(tokens[0]) && NoSpace(tokens[1]) && NoSpace(tokens[2]);
    }
    assert Slice(tokens, 0, 3) == tokens;
    assert Piece(tokens[1]) == "s";
    assert Detokenize(tokens[2..]) == " up";
    assert Detokenize(tokens[1..]) == "s" + " up";
  }

  /** `get_correct_answer("What ##s up")` is `" Whats up"`. */
  lemma AnswerExample()
    ensures GetCorrectAnswer("What ##s up") == " Whats up"
  {
    var tokens := ["What", "##s", "up"];
    SpanExample(tokens);
    JoinExample(tokens);
    assert Slice(tokens, 0, 3) == tokens;
    assert AnswerFromSpan(tokens, 0, 2) == GetCorrectAnswer(Join(tokens, " "));
  }

  lemma JoinExample(tokens: seq<string>)
    requires tokens == ["What", "##s", "up"]
    ensures Join(tokens, " ") == "What ##s up"
  {
    assert Join(tokens[2..], " ") == "up";
    assert Join(tokens[1..], " ") == "##s" + " " + "up";
    assert "What" + " " + ("##s" + " " + "up") == "What ##s up";
  }

  /** A bare continuation marker contributes nothing: the span `["##"]`
      gives the empty answer. */
  lemma MarkerExample(tokens: seq<string>)
    requires tokens == ["##"]
    ensures AnswerFromSpan(tokens, 0, 0) == ""
  {
    assert WellFormed(tokens) by {
      assert NoSpace(tokens[0]);
    }
    assert Slice(tokens, 0, 1) == tokens;
    assert IsContinuation(tokens[0]);
  }
}

=== FILE: chunker.dfy ===
/** `text_to_chunks` (qa/utils.py): every text is split on single spaces,
    the words are cut into groups of `word_length`, a short last group of
    any text but the last is carried over to the front of the next text,
    and every group is emitted as a quoted, stripped, space-joined string. */
module Chunker {
  import opened Seqs
  import opened Text
  import opened Results

  /** The inner loop over one text's words: full groups of `w` are emitted;
      a short remainder is emitted when this is the last text and returned
      as the carry otherwise. */
  function Cut(words: seq<string>, w: nat, isLast: bool): (r: (seq<seq<string>>, seq<string>))
    requires w >= 1
    ensures Flatten(r.0) + r.1 == words
    ensures isLast ==> r.1 == [] && Packed(r.0, w)
    ensures !isLast ==> |r.1| < w && Full(r.0, w)
    decreases |words|
  {
    if |words| == 0 then ([], [])
    else if |words| < w then (if isLast then ([words], []) else ([], words))
    else
      var rest := Cut(words[w..], w, isLast);
      CutHead(words, w, rest.0, rest.1, isLast);
      ([words[..w]] + rest.0, rest.1)
  }

  /** A full group in front of the groups cut from the rest of the words. */
  lemma {:induction false} CutHead(words: seq<string>, w: nat, groups: seq<seq<string>>, tail: seq<string>, isLast: bool)
    requires 1 <= w <= |words|
    requires Flatten(groups) + tail == words[w..]
    requires isLast ==> tail == [] && Packed(groups, w)
    requires !isLast ==> Full(groups, w)
    ensures Flatten([words[..w]] + groups) + tail == words
    ensures isLast ==> Packed([words[..w]] + groups, w)
    ensures !isLast ==> Full([words[..w]] + groups, w)
  {
    var g := [words[..w]] + groups;
    FlattenCons(words[..w], groups);
    assert words == words[..w] + words[w..];
    assert forall k | 1 <= k < |g| :: g[k] == groups[k - 1];
  }

  /** The outer loop over the texts' word lists, with the words carried from
      the previous text in front of the current one. */
  function Groups(units: seq<seq<string>>, carry: seq<string>, w: nat): seq<seq<string>>
    requires w >= 1
    decreases |units|
  {
    if |units| == 0 then []
    else
      var cut := Cut(carry + units[0], w, |units| == 1);
      cut.0 + Groups(units[1..], cut.1, w)
  }

  /** The word lists `t.split(' ')` of the texts. */
  function SplitAll(texts: seq<string>): (r: seq<seq<string>>)
    ensures |r| == |texts|
    ensures forall k | 0 <= k < |r| :: r[k] == Split(texts[k], ' ')
  {
    if |texts| == 0 then [] else [Split(texts[0], ' ')] + SplitAll(texts[1..])
  }

  /** The emitted form of one group: its words joined by spaces, stripped
      of surrounding whitespace, in double quotes. Between the quotes are
      exactly the group's non-whitespace characters in order (the spaces
      of the join aside), with no whitespace next to either quote. */
  function Quote(group: seq<string>): (r: string)
    ensures |r| >= 2 && r[0] == '"' && r[|r| - 1] == '"'
    ensures |r| > 2 ==> !IsSpace(r[1]) && !IsSpace(r[|r| - 2])
    ensures RemoveWs(r) == RemoveWs("\"" + Flatten(group) + "\"")
  {
    var body := Strip(Join(group, " "));
    assert AllSpace(" ");
    JoinContent(group, " ");
    QuoteContent(body, Flatten(group));
    "\"" + body + "\""
  }

  function QuoteAll(groups: seq<seq<string>>): (r: seq<string>)
    ensures |r| == |groups|
    ensures forall k {:trigger r[k]} | 0 <= k < |r| :: r[k] == Quote(groups[k])
  {
    if |groups| == 0 then []
    else
      var rest := QuoteAll(groups[1..]);
      assert forall k | 1 <= k < |groups| :: groups[1..][k - 1] == groups[k];
      [Quote(groups[0])] + rest
  }

  /** Every chunk of a quoted list is wrapped in double quotes. */
  lemma QuotedChunks(groups: seq<seq<string>>, chunks: seq<string>)
    requires chunks == QuoteAll(groups)
    ensures forall k | 0 <= k < |chunks| :: |chunks[k]| >= 2 && chunks[k][0] == '"' && chunks[k][|chunks[k]| - 1] == '"'
  {
    forall k | 0 <= k < |chunks|
      ensures |chunks[k]| >= 2 && chunks[k][0] == '"' && chunks[k][|chunks[k]| - 1] == '"'
    {
      var q := Quote(groups[k]);
      assert chunks[k] == q;
    }
  }

  /** The word groups `text_to_chunks` emits, before quoting. */
  function WordGroups(texts: seq<string>, w: nat): seq<seq<string>>
    requires w >= 1
  {
    Groups(SplitAll(texts), [], w)
  }

  datatype ChunkError = ZeroWordLength

  /** `text_to_chunks(texts, word_length, start_page)`. With no texts no
      range is built and the result is empty; otherwise a zero
      `word_length` makes `range` raise, and a negative one makes every
      range empty. `start_page` is never used. */
  function TextToChunks(texts: seq<string>, wordLength: int, startPage: int): (r: Result<seq<string>, ChunkError>)
    ensures r.Failure? <==> |texts| > 0 && wordLength == 0
    ensures r.Success? && wordLength < 1 ==> r.value == []
    ensures r.Success? ==> forall k | 0 <= k < |r.value| :: |r.value[k]| >= 2 && r.value[k][0] == '"' && r.value[k][|r.value[k]| - 1] == '"'
    ensures r.Success? && wordLength >= 1 ==>
              |r.value| == (|Flatten(SplitAll(texts))| + wordLength - 1) / wordLength
  {
    if |texts| == 0 then Success([])
    else if wordLength == 0 then Failure(ZeroWordLength)
    else if wordLength < 0 then Success([])
    else
      var groups := WordGroups(texts, wordLength);
      var chunks := QuoteAll(groups);
      WordGroupsSpec(texts, wordLength);
      QuotedChunks(groups, chunks);
      Success(chunks)
  }

  /** No word is lost, duplicated or reordered: the groups hold the carried
      words followed by every word of every text, in order. */
  lemma {:induction false} GroupsFlatten(units: seq<seq<string>>, carry: seq<string>, w: nat)
    requires w >= 1
    requires |units| > 0 || carry == []
    ensures Flatten(Groups(units, carry, w)) == carry + Flatten(units)
    decreases |units|
  {
    if |units| > 0 {
      var cut := Cut(carry + units[0], w, |units| == 1);
      var rest := units[1..];
      var head := Flatten(cut.0);
      GroupsStep(units, carry, w);
      GroupsFlatten(rest, cut.1, w);
      FlattenCons(units[0], rest);
      Regroup(head, cut.1, Flatten(rest), carry, units[0]);
    }
  }

  /** Moving the carried tail into the next unit keeps the words in order. */
  lemma Regroup(x: seq<string>, tail: seq<string>, more: seq<string>, carry: seq<string>, first: seq<string>)
    requires x + tail == carry + first
    ensures x + (tail + more) == carry + (first + more)
  {
    assert x + (tail + more) == (x + tail) + more;
    assert (carry + first) + more == carry + (first + more);
  }

  /** One step of the outer loop: the groups cut from the first text, then
      the groups of the rest with the new carry. */
  lemma {:induction false} GroupsStep(units: seq<seq<string>>, carry: seq<string>, w: nat)
    requires w >= 1 && |units| > 0
    ensures var cut := Cut(carry + units[0], w, |units| == 1);
            && Flatten(Groups(units, carry, w)) == Flatten(cut.0) + Flatten(Groups(units[1..], cut.1, w))
            && Flatten(cut.0) + cut.1 == carry + units[0]
            && (|units| == 1 ==> cut.1 == [])
  {
    var cut := Cut(carry + units[0], w, |units| == 1);
    FlattenAppend(cut.0, Groups(units[1..], cut.1, w));
  }

  /** Only the very last group can be short: every group but the last holds
      exactly `w` words, and none is empty. */
  lemma {:induction false} GroupsPacked(units: seq<seq<string>>, carry: seq<string>, w: nat)
    requires w >= 1
    ensures Packed(Groups(units, carry, w), w)
    decreases |units|
  {
    if |units| > 0 {
      var cut := Cut(carry + units[0], w, |units| == 1);
      var rest := units[1..];
      if |units| == 1 {
        assert Groups(rest, cut.1, w) == [];
        assert cut.0 + [] == cut.0;
      } else {
        GroupsPacked(rest, cut.1, w);
        FullThenPacked(cut.0, Groups(rest, cut.1, w), w);
      }
    }
  }

  lemma WordGroupsSpec(texts: seq<string>, w: nat)
    requires w >= 1
    ensures Flatten(WordGroups(texts, w)) == Flatten(SplitAll(texts))
    ensures Packed(WordGroups(texts, w), w)
    ensures |WordGroups(texts, w)| == (|Flatten(SplitAll(texts))| + w - 1) / w
  {
    var groups := WordGroups(texts, w);
    GroupsFlatten(SplitAll(texts), [], w);
    GroupsPacked(SplitAll(texts), [], w);
    PackedCount(groups, w);
  }

  /** The chunks of `text_to_chunks` for a positive `word_length`: one
      quoted chunk per word group (`WordGroupsSpec` says what the groups
      hold, `Quote` what a quoted chunk keeps); `start_page`
      makes no difference. */
  lemma {:induction false} TextToChunksSpec(texts: seq<string>, wordLength: int, startPage: int,
                                            groups: seq<seq<string>>, r: Result<seq<string>, ChunkError>)
    requires wordLength >= 1
    requires groups == WordGroups(texts, wordLength) && r == TextToChunks(texts, wordLength, startPage)
    ensures r.Success? && r == TextToChunks(texts, wordLength, 1)
    ensures |r.value| == |groups|
    ensures forall k | 0 <= k < |groups| :: r.value[k] == Quote(groups[k])
  {
  }

  /** Stripping only removes the end runs of whitespace, so when the joined
      group neither starts nor ends with whitespace the chunk is exactly
      the words joined by single spaces, in quotes: the spaces between
      words are kept. */
  lemma QuoteSpacing(group: seq<string>)
    ensures var j := Join(group, " ");
            (|j| == 0 || (!IsSpace(j[0]) && !IsSpace(j[|j| - 1]))) ==> Quote(group) == "\"" + j + "\""
  {
    var j := Join(group, " ");
    assert Quote(group) == "\"" + Strip(j) + "\"";
  }

  /** For a group of non-empty, whitespace-free words, the text between
      the quotes splits on single spaces back into the group: the words
      are kept, each separated by exactly one space. */
  lemma {:induction false} QuoteWords(group: seq<string>)
    requires |group| > 0
    requires forall k | 0 <= k < |group| :: |group[k]| > 0 && NoSpace(group[k])
    ensures var q := Quote(group); Split(q[1..|q| - 1], ' ') == group
  {
    var j := Join(group, " ");
    var last := group[|group| - 1];
    JoinEnds(group, " ");
    assert !IsSpace(group[0][0]) && !IsSpace(last[|last| - 1]);
    QuoteSpacing(group);
    var q := Quote(group);
    assert q == "\"" + j + "\"";
    assert q[1..|q| - 1] == j;
    SplitOfJoin(group, ' ');
  }

  lemma {:induction false} QuoteContent(body: string, words: string)
    requires RemoveWs(body) == RemoveWs(words)
    ensures RemoveWs("\"" + body + "\"") == RemoveWs("\"" + words + "\"")
  {
    RemoveWsAppend("\"" + body, "\"");
    RemoveWsAppend("\"", body);
    RemoveWsAppend("\"" + words, "\"");
    RemoveWsAppend("\"", words);
  }

  lemma HelloWords()
    ensures Split("Hello, World!", ' ') == ["Hello,", "World!"]
  {
    assert Join(["Hello,", "World!"], " ") == "Hello, World!";
    SplitOfJoin(["Hello,", "World!"], ' ');
  }

  lemma HelloUnits()
    ensures SplitAll(["Hello, World!", "Hello, World!"]) == [["Hello,", "World!"], ["Hello,", "World!"]]
  {
    HelloWords();
  }

  lemma HelloQuote(g: seq<string>, joined: string)
    requires |g| > 0 && NoSpace(g[0]) && Join(g, " ") == joined
    requires |joined| > 0 && !IsSpace(joined[0]) && !IsSpace(joined[|joined| - 1])
    ensures Quote(g) == "\"" + joined + "\""
  {
    assert LeadingSpaces(joined) == 0;
    assert TrailingStart(joined) == |joined|;
    assert joined[0..|joined|] == joined;
  }

  lemma CutPair(a: string, b: string, isLast: bool)
    ensures Cut([a, b], 2, isLast) == ([[a, b]], [])
  {
    var words := [a, b];
    assert words[2..] == [];
    assert words[..2] == words;
    assert Cut(words[2..], 2, isLast) == ([], []);
    assert Cut(words, 2, isLast) == ([words[..2]] + [], []);
    assert [words[..2]] + [] == [words];
  }

  lemma GroupsPair(t: seq<string>)
    requires |t| == 2
    ensures Groups([t, t], [], 2) == [t, t]
  {
    CutPair(t[0], t[1], false);
    CutPair(t[0], t[1], true);
    assert [t[0], t[1]] == t;
    assert [t, t][1..] == [t];
    assert [] + t == t;
    assert Groups([t], [], 2) == [t] + Groups([], [], 2);
  }

  lemma PairGroups()
    ensures WordGroups(["Hello, World!", "Hello, World!"], 2) == [["Hello,", "World!"], ["Hello,", "World!"]]
  {
    HelloUnits();
    GroupsPair(["Hello,", "World!"]);
  }

  lemma PairQuote()
    ensures Quote(["Hello,", "World!"]) == "\"" + "Hello, World!" + "\""
  {
    var g := ["Hello,", "World!"];
    var joined := "Hello, World!";
    assert Join(g, " ") == joined;
    assert NoSpace(g[0]);
    assert !IsSpace(joined[0]) && !IsSpace(joined[|joined| - 1]);
    HelloQuote(g, joined);
  }

  /** For a positive `word_length`, the chunks are the quoted word groups. */
  lemma ChunksOfGroups(texts: seq<string>, w: int, startPage: int, groups: seq<seq<string>>)
    requires w >= 1 && |texts| > 0 && WordGroups(texts, w) == groups
    ensures TextToChunks(texts, w, startPage) == Success(QuoteAll(groups))
  {
  }

  lemma PairChunks(texts: seq<string>, g: seq<string>, q: string)
    requires |texts| > 0 && WordGroups(texts, 2) == [g, g] && Quote(g) == q
    ensures TextToChunks(texts, 2, 1) == Success([q, q])
  {
    ChunksOfGroups(texts, 2, 1, [g, g]);
    assert QuoteAll([g, g]) == [Quote(g), Quote(g)];
  }

  /** Two pages of two words each at two words per chunk: one chunk per
      page. */
  lemma TextToChunksPairExample()
    ensures TextToChunks(["Hello, World!", "Hello, World!"], 2, 1)
            == Success(["\"" + "Hello, World!" + "\"", "\"" + "Hello, World!" + "\""])
  {
    PairGroups();
    PairQuote();
    PairChunks(["Hello, World!", "Hello, World!"], ["Hello,", "World!"], "\"" + "Hello, World!" + "\"");
  }

  lemma GroupsCarry(t: seq<string>)
    requires |t| == 2
    ensures Groups([t, t], [], 256) == [t + t]
  {
    assert [] + t == t;
    assert Cut(t, 256, false) == ([], t);
    var tt := t + t;
    assert Cut(tt, 256, true) == ([tt], []);
    assert [t, t][1..] == [t];
    assert Groups([t], t, 256) == [tt] + Groups([], [], 256);
  }

  lemma CarryGroups()
    ensures WordGroups(["Hello, World!", "Hello, World!"], 256) == [["Hello,", "World!"] + ["Hello,", "World!"]]
  {
    HelloUnits();
    GroupsCarry(["Hello,", "World!"]);
  }

  lemma CarryJoin()
    ensures Join(["Hello,", "World!"] + ["Hello,", "World!"], " ") == "Hello, World! Hello, World!"
  {
    assert ["Hello,", "World!"] + ["Hello,", "World!"] == ["Hello,", "World!", "Hello,", "World!"];
    assert Join(["Hello,", "World!", "Hello,", "World!"], " ") == "Hello, World! Hello, World!";
  }

  lemma CarryQuote()
    ensures Quote(["Hello,", "World!"] + ["Hello,", "World!"]) == "\"" + "Hello, World! Hello, World!" + "\""
  {
    var gg := ["Hello,", "World!"] + ["Hello,", "World!"];
    var joined := "Hello, World! Hello, World!";
    CarryJoin();
    assert gg[0] == "Hello,";
    assert NoSpace(gg[0]);
    assert !IsSpace(joined[0]) && !IsSpace(joined[|joined| - 1]);
    HelloQuote(gg, joined);
  }

  /** The same pages at 256 words per chunk: the first page is too short
      and is carried into the second, giving one chunk. */
  lemma TextToChunksCarryExample()
    ensures TextToChunks(["Hello, World!", "Hello, World!"], 256, 1)
            == Success(["\"" + "Hello, World! Hello, World!" + "\""])
  {
    var gg := ["Hello,", "World!"] + ["Hello,", "World!"];
    CarryGroups();
    CarryQuote();
    ChunksOfGroups(["Hello, World!", "Hello, World!"], 256, 1, [gg]);
    assert QuoteAll([gg]) == [Quote(gg)];
  }
}

=== FILE: dataset_hash.dfy ===
/** The dataset checksum (`get_dataset_hash`, `get_folder_hash` and
    `get_file_hash` in qa/utils.py). `get_folder_hash` walks the whole tree
    below a folder with `os.walk` and, for every folder the walk visits,
    feeds that folder's files to the digest and then calls itself on each
    of its sub-folders; those sub-folders are visited again by the walk, so
    the contents of a file `d` folders deep reach the digest `2^d` times.
    Only file contents are fed, never names. The digest itself (MD5 by
    default) is a parameter of the model. */
module DatasetHash {
  import opened Seqs

  newtype byte = x: int | 0 <= x < 256

  datatype File = File(name: string, content: seq<byte>)

  /** A folder as the directory listing shows it: its files and its
      sub-folders, each in listing order. */
  datatype Dir = Dir(name: string, files: seq<File>, subdirs: seq<Dir>)

  /** One visit of the walk: the folder and its position in the tree, as the
      sequence of sub-folder indices that leads to it from the root. */
  datatype Visit = Visit(path: seq<nat>, dir: Dir)

  /** One file handed to `get_file_hash`: where it is (folder position and
      index in that folder's listing) and what it holds. */
  datatype Fed = Fed(path: seq<nat>, index: nat, content: seq<byte>)

  function Size(d: Dir): nat
  {
    1 + SizeAll(d.subdirs)
  }

  function SizeAll(ds: seq<Dir>): nat
  {
    if |ds| == 0 then 0 else Size(ds[0]) + SizeAll(ds[1..])
  }

  lemma {:induction false} SizeAllBounds(ds: seq<Dir>, i: nat)
    requires i < |ds|
    ensures Size(ds[i]) <= SizeAll(ds)
  {
    if i > 0 {
      SizeAllBounds(ds[1..], i - 1);
    }
  }

  /** `os.walk(top)` in its default top-down order: the folder itself, then
      the walk of each sub-folder in listing order. Every visited folder is
      no larger than the top. */
  function Walk(path: seq<nat>, d: Dir): (r: seq<Visit>)
    ensures |r| > 0 && r[0] == Visit(path, d)
    ensures forall k | 0 <= k < |r| :: Size(r[k].dir) <= Size(d)
    decreases d, 1
  {
    [Visit(path, d)] + WalkFrom(path, d.subdirs, 0)
  }

  /** The walks of the sub-folders `ds[i..]` of the folder at `path`. */
  function WalkFrom(path: seq<nat>, ds: seq<Dir>, i: nat): (r: seq<Visit>)
    ensures forall k | 0 <= k < |r| :: Size(r[k].dir) <= SizeAll(ds)
    decreases ds, 0, |ds| - i
  {
    if i >= |ds| then []
    else
      var here := Walk(path + [i], ds[i]);
      var rest := WalkFrom(path, ds, i + 1);
      SizeAllBounds(ds, i);
      here + rest
  }

  /** The largest folder among the visits. */
  function MaxSize(vs: seq<Visit>): (m: nat)
    ensures forall k | 0 <= k < |vs| :: Size(vs[k].dir) <= m
    ensures |vs| > 0 ==> MaxSize(vs[1..]) <= m
  {
    if |vs| == 0 then 0 else Max(Size(vs[0].dir), MaxSize(vs[1..]))
  }

  lemma {:induction false} MaxSizeAtMost(vs: seq<Visit>, b: nat)
    requires forall k | 0 <= k < |vs| :: Size(vs[k].dir) <= b
    ensures MaxSize(vs) <= b
  {
    if |vs| > 0 {
      MaxSizeAtMost(vs[1..], b);
    }
  }

  /** The files of one folder, in listing order. */
  function FileFeeds(path: seq<nat>, files: seq<File>, i: nat): (r: seq<Fed>)
    ensures |r| == Max(|files| - i, 0)
    ensures forall k | 0 <= k < |r| :: r[k] == Fed(path, i + k, files[i + k].content)
    decreases |files| - i
  {
    if i >= |files| then [] else [Fed(path, i, files[i].content)] + FileFeeds(path, files, i + 1)
  }

  /** `get_folder_hash(folder)`: for every folder the walk visits, its files
      and then a full `get_folder_hash` of each of its sub-folders. */
  function FolderFeeds(path: seq<nat>, d: Dir): seq<Fed>
    decreases 4 * Size(d) + 3, 0
  {
    MaxSizeAtMost(Walk(path, d), Size(d));
    WalkFeeds(Walk(path, d))
  }

  function WalkFeeds(vs: seq<Visit>): seq<Fed>
    decreases 4 * MaxSize(vs) + 2, |vs|
  {
    if |vs| == 0 then [] else VisitFeeds(vs[0]) + WalkFeeds(vs[1..])
  }

  /** The body of the `os.walk` loop for one visited folder. */
  function VisitFeeds(v: Visit): seq<Fed>
    decreases 4 * Size(v.dir) + 1, 0
  {
    FileFeeds(v.path, v.dir.files, 0) + ChildFeeds(v.path, v.dir.subdirs, 0)
  }

  /** `get_folder_hash` of the sub-folders `ds[i..]` of the folder at
      `path`, one after the other. */
  function ChildFeeds(path: seq<nat>, ds: seq<Dir>, i: nat): seq<Fed>
    decreases 4 * SizeAll(ds) + 4, |ds| - i
  {
    if i >= |ds| then []
    else
      SizeAllBounds(ds, i);
      FolderFeeds(path + [i], ds[i]) + ChildFeeds(path, ds, i + 1)
  }

  /** The bytes the digest receives from a sequence of fed files. */
  function StreamOf(feeds: seq<Fed>): seq<byte>
  {
    if |feeds| == 0 then [] else feeds[0].content + StreamOf(feeds[1..])
  }

  /** The bytes `get_dataset_hash(dataset)` feeds to its digest. */
  function DatasetStream(d: Dir): seq<byte>
  {
    StreamOf(FolderFeeds([], d))
  }

  /** `get_dataset_hash(dataset, algorithm)`: the hex digest of the stream,
      for a digest function standing for `hashlib.new(algorithm)`. The
      digest of bytes fed in several `update` calls is the digest of their
      concatenation, so the digest is a function of the whole stream: the
      top folder's file bytes, then the sub-folders' bytes twice. */
  function GetDatasetHash(d: Dir, digest: seq<byte> -> string): (r: string)
    ensures var subs := StreamOf(ChildFeeds([], d.subdirs, 0));
            r == digest(FilesStream(d.files) + subs + subs)
  {
    DatasetStreamTwice(d);
    digest(DatasetStream(d))
  }

  lemma {:induction false} WalkFeedsAppend(a: seq<Visit>, b: seq<Visit>)
    ensures WalkFeeds(a + b) == WalkFeeds(a) + WalkFeeds(b)
  {
    if |a| == 0 {
      assert a + b == b;
    } else {
      assert (a + b)[1..] == a[1..] + b;
      WalkFeedsAppend(a[1..], b);
    }
  }

  /** Walking the sub-folders and running the loop body on every visit
      feeds what a full `get_folder_hash` of each sub-folder feeds. */
  lemma {:induction false} WalkFromFeeds(path: seq<nat>, ds: seq<Dir>, i: nat)
    ensures WalkFeeds(WalkFrom(path, ds, i)) == ChildFeeds(path, ds, i)
    decreases |ds| - i
  {
    if i < |ds| {
      WalkFromFeeds(path, ds, i + 1);
      WalkFeedsAppend(Walk(path + [i], ds[i]), WalkFrom(path, ds, i + 1));
    }
  }

  /** The feeds of a folder in closed form: its own files, then every
      sub-folder's feeds, and then every sub-folder's feeds again (once from
      the explicit recursion, once from the walk reaching the sub-folders
      itself). */
  lemma {:induction false} FolderFeedsTwice(path: seq<nat>, d: Dir)
    ensures FolderFeeds(path, d)
            == FileFeeds(path, d.files, 0) + ChildFeeds(path, d.subdirs, 0) + ChildFeeds(path, d.subdirs, 0)
  {
    var w := Walk(path, d);
    assert w == [Visit(path, d)] + WalkFrom(path, d.subdirs, 0);
    WalkFeedsAppend([Visit(path, d)], WalkFrom(path, d.subdirs, 0));
    assert WalkFeeds([Visit(path, d)]) == VisitFeeds(Visit(path, d));
    WalkFromFeeds(path, d.subdirs, 0);
  }

  function Pow2(n: nat): nat
  {
    if n == 0 then 1 else 2 * Pow2(n - 1)
  }

  /** How many times the file at index `idx` of the folder at `loc` is fed. */
  function CountAt(feeds: seq<Fed>, loc: seq<nat>, idx: nat): nat
  {
    if |feeds| == 0 then 0
    else (if feeds[0].path == loc && feeds[0].index == idx then 1 else 0) + CountAt(feeds[1..], loc, idx)
  }

  /** The folder reached from `d` by the sub-folder indices `p` has a file
      at index `idx`. */
  predicate Locates(d: Dir, p: seq<nat>, idx: nat)
    decreases |p|
  {
    if |p| == 0 then idx < |d.files|
    else p[0] < |d.subdirs| && Locates(d.subdirs[p[0]], p[1..], idx)
  }

  lemma {:induction false} CountAtAppend(a: seq<Fed>, b: seq<Fed>, loc: seq<nat>, idx: nat)
    ensures CountAt(a + b, loc, idx) == CountAt(a, loc, idx) + CountAt(b, loc, idx)
  {
    if |a| == 0 {
      assert a + b == b;
    } else {
      assert (a + b)[1..] == a[1..] + b;
      CountAtAppend(a[1..], b, loc, idx);
    }
  }

  lemma {:induction false} CountAtNone(feeds: seq<Fed>, loc: seq<nat>, idx: nat)
    requires forall k | 0 <= k < |feeds| :: feeds[k].path != loc
    ensures CountAt(feeds, loc, idx) == 0
  {
    if |feeds| > 0 {
      CountAtNone(feeds[1..], loc, idx);
    }
  }

  /** A folder's own files are fed once each. */
  lemma {:induction false} FileFeedsCount(path: seq<nat>, files: seq<File>, i: nat, idx: nat)
    ensures CountAt(FileFeeds(path, files, i), path, idx) == (if i <= idx < |files| then 1 else 0)
    decreases |files| - i
  {
    if i < |files| {
      FileFeedsCount(path, files, i + 1, idx);
    }
  }

  /** Every file fed for the folder at `path` lies below `path`. */
  lemma {:induction false} FolderFeedsBelow(path: seq<nat>, d: Dir)
    ensures forall k | 0 <= k < |FolderFeeds(path, d)| ::
              |FolderFeeds(path, d)[k].path| >= |path| && FolderFeeds(path, d)[k].path[..|path|] == path
    decreases d, 1
  {
    var own := FileFeeds(path, d.files, 0);
    var subs := ChildFeeds(path, d.subdirs, 0);
    FolderFeedsTwice(path, d);
    ChildFeedsBelow(path, d.subdirs, 0);
    var r := own + subs + subs;
    forall k | 0 <= k < |r|
      ensures |r[k].path| >= |path| && r[k].path[..|path|] == path
    {
      if k < |own| {
        assert r[k] == own[k];
      } else if k < |own| + |subs| {
        assert r[k] == subs[k - |own|];
      } else {
        assert r[k] == subs[k - |own| - |subs|];
      }
    }
  }

  /** Every file fed for the sub-folders `ds[i..]` of the folder at `path`
      lies strictly below `path`, under one of those sub-folders. */
  lemma {:induction false} ChildFeedsBelow(path: seq<nat>, ds: seq<Dir>, i: nat)
    ensures forall k | 0 <= k < |ChildFeeds(path, ds, i)| ::
              var q := ChildFeeds(path, ds, i)[k].path;
              |q| > |path| && q[..|path|] == path && i <= q[|path|] < |ds|
    decreases ds, 0, |ds| - i
  {
    if i < |ds| {
      var here := FolderFeeds(path + [i], ds[i]);
      var rest := ChildFeeds(path, ds, i + 1);
      FolderFeedsBelow(path + [i], ds[i]);
      ChildFeedsBelow(path, ds, i + 1);
      var r := here + rest;
      forall k | 0 <= k < |r|
        ensures |r[k].path| > |path| && r[k].path[..|path|] == path && i <= r[k].path[|path|] < |ds|
      {
        if k < |here| {
          var q := here[k].path;
          assert r[k] == here[k];
          assert q[..|path| + 1] == path + [i];
          assert q[..|path|] == q[..|path| + 1][..|path|];
          assert q[|path|] == q[..|path| + 1][|path|];
        } else {
          assert r[k] == rest[k - |here|];
        }
      }
    }
  }

  /** Among the sub-folders `ds[i..]`, only sub-folder `j` feeds files of
      locations below it. */
  lemma {:induction false} ChildFeedsCount(path: seq<nat>, ds: seq<Dir>, i: nat, j: nat, q: seq<nat>, idx: nat)
    ensures CountAt(ChildFeeds(path, ds, i), path + [j] + q, idx)
            == (if i <= j < |ds| then CountAt(FolderFeeds(path + [j], ds[j]), path + [j] + q, idx) else 0)
    decreases |ds| - i
  {
    var loc := path + [j] + q;
    assert loc[..|path|] == path && loc[|path|] == j;
    if i < |ds| {
      var here := FolderFeeds(path + [i], ds[i]);
      var rest := ChildFeeds(path, ds, i + 1);
      CountAtAppend(here, rest, loc, idx);
      if i == j {
        ChildFeedsBelow(path, ds, i + 1);
        CountAtNone(rest, loc, idx);
      } else {
        FolderFeedsBelow(path + [i], ds[i]);
        forall k | 0 <= k < |here| ensures here[k].path != loc {
          var r := here[k].path;
          assert r[..|path| + 1] == path + [i];
          assert r[|path|] == i;
        }
        CountAtNone(here, loc, idx);
        ChildFeedsCount(path, ds, i + 1, j, q, idx);
      }
    } else {
      assert ChildFeeds(path, ds, i) == [];
    }
  }

  /** A location below `path` names its first sub-folder, then the rest. */
  lemma LocationSplit(path: seq<nat>, p: seq<nat>, loc: seq<nat>)
    requires |p| > 0 && loc == path + p
    ensures loc == path + [p[0]] + p[1..]
  {
    ConsTail(p, p[1..]);
    assert path + ([p[0]] + p[1..]) == path + [p[0]] + p[1..];
  }

  /** The file at index `idx` of the folder `p` levels below `d` is fed
      exactly `2^|p|` times, and a location holding no file never is. */
  lemma {:induction false} FedCopies(path: seq<nat>, d: Dir, p: seq<nat>, idx: nat)
    ensures CountAt(FolderFeeds(path, d), path + p, idx) == (if Locates(d, p, idx) then Pow2(|p|) else 0)
    decreases |p|
  {
    var own := FileFeeds(path, d.files, 0);
    var subs := ChildFeeds(path, d.subdirs, 0);
    var loc := path + p;
    FolderFeedsTwice(path, d);
    CountAtAppend(own + subs, subs, loc, idx);
    CountAtAppend(own, subs, loc, idx);
    if |p| == 0 {
      assert loc == path;
      FileFeedsCount(path, d.files, 0, idx);
      ChildFeedsBelow(path, d.subdirs, 0);
      CountAtNone(subs, loc, idx);
    } else {
      var j := p[0];
      var q := p[1..];
      LocationSplit(path, p, loc);
      CountAtNone(own, loc, idx);
      ChildFeedsCount(path, d.subdirs, 0, j, q, idx);
      if j < |d.subdirs| {
        FedCopies(path + [j], d.subdirs[j], q, idx);
      }
    }
  }

  /** Two trees with the same shape and the same file contents, whatever
      the names of their files and folders. */
  predicate SameContents(a: Dir, b: Dir)
    decreases a
  {
    && |a.files| == |b.files|
    && (forall k | 0 <= k < |a.files| :: a.files[k].content == b.files[k].content)
    && |a.subdirs| == |b.subdirs|
    && (forall k | 0 <= k < |a.subdirs| :: SameContents(a.subdirs[k], b.subdirs[k]))
  }

  /** Names are never fed: renaming files and folders changes nothing. */
  lemma {:induction false} FolderFeedsIgnoreNames(path: seq<nat>, a: Dir, b: Dir)
    requires SameContents(a, b)
    ensures FolderFeeds(path, a) == FolderFeeds(path, b)
    decreases a, 1
  {
    FolderFeedsTwice(path, a);
    FolderFeedsTwice(path, b);
    assert FileFeeds(path, a.files, 0) == FileFeeds(path, b.files, 0);
    ChildFeedsIgnoreNames(path, a.subdirs, b.subdirs, 0);
  }

  lemma {:induction false} ChildFeedsIgnoreNames(path: seq<nat>, xs: seq<Dir>, ys: seq<Dir>, i: nat)
    requires |xs| == |ys|
    requires forall k | 0 <= k < |xs| :: SameContents(xs[k], ys[k])
    ensures ChildFeeds(path, xs, i) == ChildFeeds(path, ys, i)
    decreases xs, 0, |xs| - i
  {
    if i < |xs| {
      FolderFeedsIgnoreNames(path + [i], xs[i], ys[i]);
      ChildFeedsIgnoreNames(path, xs, ys, i + 1);
    }
  }

  /** Renaming files or folders of a dataset leaves its checksum alone. */
  lemma RenamedDatasetSameHash(a: Dir, b: Dir, digest: seq<byte> -> string)
    requires SameContents(a, b)
    ensures GetDatasetHash(a, digest) == GetDatasetHash(b, digest)
  {
    FolderFeedsIgnoreNames([], a, b);
  }

  lemma {:induction false} StreamOfAppend(a: seq<Fed>, b: seq<Fed>)
    ensures StreamOf(a + b) == StreamOf(a) + StreamOf(b)
  {
    if |a| == 0 {
      assert a + b == b;
    } else {
      assert (a + b)[1..] == a[1..] + b;
      StreamOfAppend(a[1..], b);
    }
  }

  /** The contents of a list of files, one after the other. */
  function FilesStream(files: seq<File>): seq<byte>
  {
    if |files| == 0 then [] else files[0].content + FilesStream(files[1..])
  }

  lemma {:induction false} FilesStreamAppend(a: seq<File>, b: seq<File>)
    ensures FilesStream(a + b) == FilesStream(a) + FilesStream(b)
  {
    if |a| == 0 {
      assert a + b == b;
    } else {
      assert (a + b)[1..] == a[1..] + b;
      FilesStreamAppend(a[1..], b);
    }
  }

  /** A folder's own files feed their contents in listing order. */
  lemma {:induction false} FileFeedsStream(path: seq<nat>, files: seq<File>, i: nat)
    requires i <= |files|
    ensures StreamOf(FileFeeds(path, files, i)) == FilesStream(files[i..])
    decreases |files| - i
  {
    if i < |files| {
      FileFeedsStream(path, files, i + 1);
      assert files[i..][1..] == files[i + 1..];
    }
  }

  /** `d` with an empty file named `name` inserted at position `k` of its
      own listing. */
  function InsertEmptyFile(d: Dir, k: nat, name: string): (r: Dir)
    requires k <= |d.files|
    ensures |r.files| == |d.files| + 1 && r.files[k] == File(name, [])
    ensures r.subdirs == d.subdirs
  {
    Dir(d.name, d.files[..k] + [File(name, [])] + d.files[k..], d.subdirs)
  }

  /** The stream of a folder in closed form: its own files, then the
      sub-folders' stream twice. */
  lemma {:induction false} FolderStreamTwice(path: seq<nat>, d: Dir)
    ensures StreamOf(FolderFeeds(path, d))
            == FilesStream(d.files) + StreamOf(ChildFeeds(path, d.subdirs, 0)) + StreamOf(ChildFeeds(path, d.subdirs, 0))
  {
    var own := FileFeeds(path, d.files, 0);
    var subs := ChildFeeds(path, d.subdirs, 0);
    FolderFeedsTwice(path, d);
    StreamOfAppend(own + subs, subs);
    StreamOfAppend(own, subs);
    FileFeedsStream(path, d.files, 0);
    assert d.files[0..] == d.files;
  }

  /** The dataset stream in closed form: the top folder's files, then the
      sub-folders' stream twice. */
  lemma DatasetStreamTwice(d: Dir)
    ensures DatasetStream(d)
            == FilesStream(d.files) + StreamOf(ChildFeeds([], d.subdirs, 0)) + StreamOf(ChildFeeds([], d.subdirs, 0))
  {
    FolderStreamTwice([], d);
  }

  /** An empty file contributes no bytes wherever it is listed. */
  lemma {:induction false} InsertEmptyFileStream(files: seq<File>, k: nat, name: string)
    requires k <= |files|
    ensures FilesStream(files[..k] + [File(name, [])] + files[k..]) == FilesStream(files)
  {
    FilesStreamAppend(files[..k] + [File(name, [])], files[k..]);
    FilesStreamAppend(files[..k], [File(name, [])]);
    FilesStreamAppend(files[..k], files[k..]);
    assert files[..k] + files[k..] == files;
    var e := [File(name, [])];
    assert FilesStream(e) == [] + FilesStream(e[1..]);
    assert e[1..] == [];
  }

  /** The sub-folder indices `p` lead from `d` to a folder whose listing
      has a position `k` to insert at. */
  predicate InsertableAt(d: Dir, p: seq<nat>, k: nat)
    decreases |p|
  {
    if |p| == 0 then k <= |d.files|
    else p[0] < |d.subdirs| && InsertableAt(d.subdirs[p[0]], p[1..], k)
  }

  /** `d` with an empty file named `name` inserted at position `k` of the
      listing of the folder the sub-folder indices `p` lead to. The new
      file is found there, and the shape of the tree above it is kept. */
  function InsertEmptyFileAt(d: Dir, p: seq<nat>, k: nat, name: string): (r: Dir)
    requires InsertableAt(d, p, k)
    ensures Locates(r, p, k)
    ensures |r.subdirs| == |d.subdirs|
    ensures |p| > 0 ==> r.files == d.files && forall j | 0 <= j < |d.subdirs| && j != p[0] :: r.subdirs[j] == d.subdirs[j]
    decreases |p|
  {
    if |p| == 0 then InsertEmptyFile(d, k, name)
    else
      var j := p[0];
      Dir(d.name, d.files, d.subdirs[j := InsertEmptyFileAt(d.subdirs[j], p[1..], k, name)])
  }

  /** Replacing one sub-folder by one that streams the same bytes leaves
      the stream of the sub-folders `ds[i..]` alone. */
  lemma {:induction false} ChildStreamReplace(path: seq<nat>, ds: seq<Dir>, j: nat, x: Dir, i: nat)
    requires j < |ds|
    requires StreamOf(FolderFeeds(path + [j], x)) == StreamOf(FolderFeeds(path + [j], ds[j]))
    ensures StreamOf(ChildFeeds(path, ds[j := x], i)) == StreamOf(ChildFeeds(path, ds, i))
    decreases |ds| - i
  {
    var es := ds[j := x];
    if i < |ds| {
      ChildStreamReplace(path, ds, j, x, i + 1);
      StreamOfAppend(FolderFeeds(path + [i], es[i]), ChildFeeds(path, es, i + 1));
      StreamOfAppend(FolderFeeds(path + [i], ds[i]), ChildFeeds(path, ds, i + 1));
    }
  }

  /** An empty file adds no bytes to the stream of any folder it is put
      in, however deep. */
  lemma {:induction false} InsertEmptyFileAtStream(path: seq<nat>, d: Dir, p: seq<nat>, k: nat, name: string)
    requires InsertableAt(d, p, k)
    ensures StreamOf(FolderFeeds(path, InsertEmptyFileAt(d, p, k, name))) == StreamOf(FolderFeeds(path, d))
    decreases |p|
  {
    var e := InsertEmptyFileAt(d, p, k, name);
    FolderStreamTwice(path, d);
    FolderStreamTwice(path, e);
    if |p| == 0 {
      InsertEmptyFileStream(d.files, k, name);
    } else {
      var j := p[0];
      var x := InsertEmptyFileAt(d.subdirs[j], p[1..], k, name);
      assert e.subdirs == d.subdirs[j := x];
      InsertEmptyFileAtStream(path + [j], d.subdirs[j], p[1..], k, name);
      ChildStreamReplace(path, d.subdirs, j, x, 0);
    }
  }

  /** An empty file adds no bytes: adding one to any folder of a dataset,
      at any position of its listing, leaves the checksum alone. */
  lemma EmptyFileSameHash(d: Dir, p: seq<nat>, k: nat, name: string, digest: seq<byte> -> string)
    requires InsertableAt(d, p, k)
    ensures GetDatasetHash(InsertEmptyFileAt(d, p, k, name), digest) == GetDatasetHash(d, digest)
  {
    InsertEmptyFileAtStream([], d, p, k, name);
  }

  /** A file one folder below the top reaches the digest twice. */
  lemma NestedFileFedTwice(top: string, sub: string, name: string, c: seq<byte>)
    ensures DatasetStream(Dir(top, [], [Dir(sub, [File(name, c)], [])])) == c + c
  {
    var s := Dir(sub, [File(name, c)], []);
    var d := Dir(top, [], [s]);
    DatasetStreamTwice(d);
    FolderFeedsTwice([0], s);
    assert FileFeeds([0], s.files, 0) == [Fed([0], 0, c)];
    assert FolderFeeds([0], s) == [Fed([0], 0, c)];
    assert ChildFeeds([], d.subdirs, 0) == FolderFeeds([] + [0], s) + ChildFeeds([], d.subdirs, 1);
    assert [] + [0] == [0];
    assert StreamOf([Fed([0], 0, c)]) == c + StreamOf([]);
  }

  /** Bytes `get_file_hash` reads per `f.read` call. */
  const BlockSize: nat := 4096

  /** `get_file_hash(file, digest)` on a digest that has already received
      `fed`: the file is read in blocks of `BlockSize` bytes until a read
      comes back empty, and every block is fed in turn. The blocks put
      together are the file; all but the last are full; an empty file
      feeds nothing. */
  method GetFileHash(fed: seq<byte>, content: seq<byte>) returns (stream: seq<byte>, blocks: seq<seq<byte>>)
    ensures stream == fed + content
    ensures Flatten(blocks) == content
    ensures Packed(blocks, BlockSize)
    ensures |blocks| == (|content| + BlockSize - 1) / BlockSize
  {
    stream := fed;
    blocks := [];
    var pos := 0;
    while pos < |content|
      invariant pos <= |content|
      invariant stream == fed + content[..pos]
      invariant Flatten(blocks) == content[..pos]
      invariant Packed(blocks, BlockSize)
      invariant pos < |content| ==> Full(blocks, BlockSize)
      decreases |content| - pos
    {
      var n := Min(BlockSize, |content| - pos);
      var block := content[pos..pos + n];
      AppendBlock(blocks, block);
      assert content[..pos + n] == content[..pos] + block;
      stream := stream + block;
      blocks := blocks + [block];
      pos := pos + n;
    }
    assert content[..pos] == content;
    PackedCount(blocks, BlockSize);
  }

  lemma {:induction false} AppendBlock(blocks: seq<seq<byte>>, block: seq<byte>)
    requires Full(blocks, BlockSize) && 1 <= |block| <= BlockSize
    ensures Flatten(blocks + [block]) == Flatten(blocks) + block
    ensures Packed(blocks + [block], BlockSize)
    ensures |block| == BlockSize ==> Full(blocks + [block], BlockSize)
  {
    FlattenAppend(blocks, [block]);
    FlattenCons(block, []);
    assert block + [] == block;
    var r := blocks + [block];
    assert forall k | 0 <= k < |blocks| :: r[k] == blocks[k];
  }

  /** Feeding every file in turn through `GetFileHash` gives the digest
      exactly the stream of the dataset. */
  method FeedDataset(d: Dir) returns (stream: seq<byte>)
    ensures stream == DatasetStream(d)
  {
    var feeds := FolderFeeds([], d);
    stream := [];
    var i := 0;
    while i < |feeds|
      invariant i <= |feeds|
      invariant stream == StreamOf(feeds[..i])
    {
      var blocks;
      stream, blocks := GetFileHash(stream, feeds[i].content);
      StreamOfAppend(feeds[..i], [feeds[i]]);
      assert feeds[..i + 1] == feeds[..i] + [feeds[i]];
      assert StreamOf([feeds[i]]) == feeds[i].content + StreamOf([]);
      i := i + 1;
    }
    assert feeds[..i] == feeds;
  }
}

=== FILE: embedding_cache.dfy ===
/** The embeddings cache of `BaseQA` / `HuggingFaceQA` (qa/qa.py). The
    constructor fingerprints the dataset and names its embeddings file
    `<checksum>.csv` under the embeddings root; `get_source_embeddings`
    loads that file when it exists and otherwise embeds the dataset, writes
    the file and returns the fresh table. The file system is a map from
    paths to stored files; reading the dataset, embedding it, writing the
    CSV and reading it back (with `from_np_array` on the embedding column)
    are parameters of the model. */
module EmbeddingCache {
  import opened Seqs
  import opened Results
  import opened Ranking
  import opened DatasetHash

  /** A path that `os.path.join` would not treat as absolute. */
  predicate Relative(p: string)
  {
    |p| == 0 || p[0] != '/'
  }

  /** What `os.path.join(a, b)` puts in front of a relative `b`: `a` itself
      when it is empty or already ends in `/`, otherwise `a` and a `/`. */
  function DirPart(a: string): (r: string)
    ensures |r| == 0 || r[|r| - 1] == '/'
    ensures |r| >= |a| && r[..|a|] == a
  {
    if |a| == 0 || a[|a| - 1] == '/' then a else a + "/"
  }

  /** `os.path.join(a, b)` on POSIX: an absolute `b` replaces `a`; otherwise
      `b` is appended after a separator unless `a` is empty or already
      ends with one. */
  function PathJoin(a: string, b: string): (r: string)
    ensures !Relative(b) ==> r == b
    ensures Relative(b) ==> |r| >= |b| && r[..|r| - |b|] == DirPart(a) && r[|r| - |b|..] == b
  {
    if |b| > 0 && b[0] == '/' then b
    else if |a| == 0 || a[|a| - 1] == '/' then a + b
    else a + "/" + b
  }

  /** `osp.join(EMBEDDINGS_ROOT, '{}.csv'.format(checksum))`: the file
      `<checksum>.csv` in the folder `root`, or the checksum's own absolute
      path with `.csv` appended. */
  function EmbeddingsFile(root: string, checksum: string): (r: string)
    ensures Relative(checksum) ==> r == DirPart(root) + checksum + ".csv"
    ensures !Relative(checksum) ==> r == checksum + ".csv"
  {
    PathJoin(root, checksum + ".csv")
  }

  /** Different checksums get different files, and the same checksum the
      same file: the file name is a function of the checksum alone and
      loses nothing of it (a hex digest never starts with `/`). */
  lemma EmbeddingsFileInjective(root: string, c1: string, c2: string)
    requires Relative(c1) && Relative(c2)
    ensures EmbeddingsFile(root, c1) == EmbeddingsFile(root, c2) <==> c1 == c2
  {
    var b1 := c1 + ".csv";
    var b2 := c2 + ".csv";
    assert Relative(b1) && Relative(b2);
    if EmbeddingsFile(root, c1) == EmbeddingsFile(root, c2) {
      var p := DirPart(root);
      assert p + b1 == PathJoin(root, b1);
      assert p + b2 == PathJoin(root, b2);
      assert b1 == b2 by {
        assert (p + b1)[|p|..] == b1;
        assert (p + b2)[|p|..] == b2;
      }
      assert c1 == b1[..|c1|] && c2 == b2[..|c2|];
    }
  }

  /** The state `BaseQA.__init__` sets up: the dataset's path, its checksum
      and the name of its embeddings file. */
  datatype Qa = Qa(datasetPath: string, checksum: string, embeddingsFile: string)

  /** `BaseQA(dataset_path)`: `tree` is the folder found at `datasetPath`,
      `digest` the hex digest, `root` the embeddings root. */
  function NewQa(datasetPath: string, tree: Dir, digest: seq<byte> -> string, root: string): (r: Qa)
    ensures r.datasetPath == datasetPath
    ensures r.checksum == GetDatasetHash(tree, digest)
    ensures r.embeddingsFile == EmbeddingsFile(root, GetDatasetHash(tree, digest))
  {
    var checksum := GetDatasetHash(tree, digest);
    Qa(datasetPath, checksum, EmbeddingsFile(root, checksum))
  }

  /** The outcome of `get_source_embeddings`: the table returned, the files
      afterwards, and whether the embedder ran. */
  datatype Lookup<E, S> = Lookup(table: seq<Row<E>>, store: map<string, S>, embedded: bool)

  /** `get_source_embeddings()`. `store` maps the existing files to their
      contents; `readDataset` is `ut.read_dataset`, `embed` the embedder's
      `embed`, `save` `DataFrame.to_csv` and `load` `read_csv` with the
      embedding column converted by `ut.from_np_array`. */
  function GetSourceEmbeddings<D, E, S>(qa: Qa, store: map<string, S>, readDataset: string -> D,
                                        embed: D -> seq<Row<E>>, save: seq<Row<E>> -> S,
                                        load: S -> seq<Row<E>>): (r: Lookup<E, S>)
    ensures qa.embeddingsFile in r.store
    ensures r.store == store[qa.embeddingsFile := r.store[qa.embeddingsFile]]
    ensures r.embedded <==> qa.embeddingsFile !in store
    ensures !r.embedded ==> r.store == store && r.table == load(store[qa.embeddingsFile])
    ensures r.embedded ==> r.table == embed(readDataset(qa.datasetPath)) && r.store[qa.embeddingsFile] == save(r.table)
  {
    var file := qa.embeddingsFile;
    if file in store then
      Lookup(load(store[file]), store, false)
    else
      var table := embed(readDataset(qa.datasetPath));
      Lookup(table, store[file := save(table)], true)
  }

  /** On a hit the dataset is neither read nor embedded: any other reader
      and embedder give the same outcome. */
  lemma HitIgnoresEmbedder<D, E, S>(qa: Qa, store: map<string, S>,
                                    read1: string -> D, embed1: D -> seq<Row<E>>,
                                    read2: string -> D, embed2: D -> seq<Row<E>>,
                                    save: seq<Row<E>> -> S, load: S -> seq<Row<E>>)
    requires qa.embeddingsFile in store
    ensures GetSourceEmbeddings(qa, store, read1, embed1, save, load)
            == GetSourceEmbeddings(qa, store, read2, embed2, save, load)
  {
  }

  /** A lookup touches only the dataset's own file: every other file is
      left as it was, present or absent. */
  lemma OtherFilesUnchanged<D, E, S>(qa: Qa, store: map<string, S>, readDataset: string -> D,
                                     embed: D -> seq<Row<E>>, save: seq<Row<E>> -> S,
                                     load: S -> seq<Row<E>>, p: string)
    requires p != qa.embeddingsFile
    ensures var r := GetSourceEmbeddings(qa, store, readDataset, embed, save, load);
            (p in r.store <==> p in store) && (p in store ==> r.store[p] == store[p])
  {
    var r := GetSourceEmbeddings(qa, store, readDataset, embed, save, load);
    assert r.store == store[qa.embeddingsFile := r.store[qa.embeddingsFile]];
  }

  /** Looking up twice: the second lookup is a hit, so the embedder runs at
      most once and the files stay as the first lookup left them. It
      returns the first table as written to the CSV file and read back. */
  lemma SecondLookupHits<D, E, S>(qa: Qa, store: map<string, S>, readDataset: string -> D,
                                  embed: D -> seq<Row<E>>, save: seq<Row<E>> -> S,
                                  load: S -> seq<Row<E>>)
    ensures var first := GetSourceEmbeddings(qa, store, readDataset, embed, save, load);
            var second := GetSourceEmbeddings(qa, first.store, readDataset, embed, save, load);
            && !second.embedded
            && second.store == first.store
            && (first.embedded ==> second.table == load(save(first.table)))
            && (!first.embedded ==> second.table == first.table)
  {
  }

  /** When writing the freshly computed table to CSV and reading it back
      gives the same table, looking up twice is looking up once. */
  lemma LookupIdempotent<D, E, S>(qa: Qa, store: map<string, S>, readDataset: string -> D,
                                  embed: D -> seq<Row<E>>, save: seq<Row<E>> -> S,
                                  load: S -> seq<Row<E>>)
    requires var t := embed(readDataset(qa.datasetPath)); load(save(t)) == t
    ensures var first := GetSourceEmbeddings(qa, store, readDataset, embed, save, load);
            var second := GetSourceEmbeddings(qa, first.store, readDataset, embed, save, load);
            second.table == first.table && second.store == first.store
  {
    SecondLookupHits(qa, store, readDataset, embed, save, load);
  }

  /** The cache is keyed by content: a copy of a dataset with renamed files
      and folders, anywhere on disk, gets the same embeddings file, so once
      either has been looked up the other is a hit. */
  lemma {:induction false} RenamedDatasetSharesEntry<D, E, S>(path1: string, tree1: Dir, path2: string, tree2: Dir,
                                           digest: seq<byte> -> string, root: string,
                                           store: map<string, S>, readDataset: string -> D,
                                           embed: D -> seq<Row<E>>, save: seq<Row<E>> -> S,
                                           load: S -> seq<Row<E>>)
    requires SameContents(tree1, tree2)
    ensures NewQa(path1, tree1, digest, root).embeddingsFile == NewQa(path2, tree2, digest, root).embeddingsFile
    ensures var first := GetSourceEmbeddings(NewQa(path1, tree1, digest, root), store, readDataset, embed, save, load);
            !GetSourceEmbeddings(NewQa(path2, tree2, digest, root), first.store, readDataset, embed, save, load).embedded
  {
    RenamedDatasetSameHash(tree1, tree2, digest);
  }

  /** Adding an empty file anywhere in a dataset does not change its
      embeddings file either: the cached table of the old dataset is
      reused. */
  lemma {:induction false} EmptyFileSharesEntry(tree: Dir, p: seq<nat>, k: nat, name: string, path: string,
                             digest: seq<byte> -> string, root: string)
    requires InsertableAt(tree, p, k)
    ensures NewQa(path, InsertEmptyFileAt(tree, p, k, name), digest, root).embeddingsFile
            == NewQa(path, tree, digest, root).embeddingsFile
  {
    EmptyFileSameHash(tree, p, k, name, digest);
  }

  /** Datasets with different checksums never share a file: looking one up
      leaves the other's entry as it was. */
  lemma DistinctChecksumsIndependent<D, E, S>(qa1: Qa, qa2: Qa, root: string, store: map<string, S>,
                                              readDataset: string -> D, embed: D -> seq<Row<E>>,
                                              save: seq<Row<E>> -> S, load: S -> seq<Row<E>>)
    requires qa1.embeddingsFile == EmbeddingsFile(root, qa1.checksum) && Relative(qa1.checksum)
    requires qa2.embeddingsFile == EmbeddingsFile(root, qa2.checksum) && Relative(qa2.checksum)
    requires qa1.checksum != qa2.checksum
    ensures var r := GetSourceEmbeddings(qa1, store, readDataset, embed, save, load);
            (qa2.embeddingsFile in r.store <==> qa2.embeddingsFile in store)
            && (qa2.embeddingsFile in store ==> r.store[qa2.embeddingsFile] == store[qa2.embeddingsFile])
  {
    EmbeddingsFileInjective(root, qa1.checksum, qa2.checksum);
    OtherFilesUnchanged(qa1, store, readDataset, embed, save, load, qa2.embeddingsFile);
  }

  /** `BaseQA.strings_ranked_by_relatedness(query, relatedness_fn, top_n)`:
      the table comes from `get_source_embeddings` and is ranked as in
      `Ranking`. Returns the ranking and the files afterwards. */
  function RankFromCache<D, E, S>(qa: Qa, store: map<string, S>, readDataset: string -> D,
                                  embed: D -> seq<Row<E>>, save: seq<Row<E>> -> S,
                                  load: S -> seq<Row<E>>, query: string, embedQuery: string -> E,
                                  related: (E, E) -> real, topN: int)
    : (r: (Result<(seq<string>, seq<real>), RankError>, map<string, S>))
    ensures var l := GetSourceEmbeddings(qa, store, readDataset, embed, save, load);
            r.1 == l.store && (r.0.Failure? <==> |l.table| == 0)
    ensures var l := GetSourceEmbeddings(qa, store, readDataset, embed, save, load);
            r.0.Success? ==> |r.0.value.0| == |r.0.value.1| == PrefixLength(|l.table|, topN)
    ensures r.0.Success? ==> forall a, b | 0 <= a < b < |r.0.value.1| :: r.0.value.1[a] >= r.0.value.1[b]
    ensures var l := GetSourceEmbeddings(qa, store, readDataset, embed, save, load);
            var s := Scores(embedQuery(query), l.table, related);
            var top := TopRows(s, topN);
            r.0.Success? ==>
              forall k | 0 <= k < |top| :: r.0.value.0[k] == l.table[top[k]].text && r.0.value.1[k] == s[top[k]]
  {
    var l := GetSourceEmbeddings(qa, store, readDataset, embed, save, load);
    (StringsRankedByRelatedness(query, l.table, embedQuery, related, topN), l.store)
  }

  /** With the CSV round trip faithful to the computed table, asking the same question twice
      gives the same ranking, and the second time nothing is embedded and
      no file changes. */
  lemma RankTwiceSame<D, E, S>(qa: Qa, store: map<string, S>, readDataset: string -> D,
                               embed: D -> seq<Row<E>>, save: seq<Row<E>> -> S,
                               load: S -> seq<Row<E>>, query: string, embedQuery: string -> E,
                               related: (E, E) -> real, topN: int)
    requires var t := embed(readDataset(qa.datasetPath)); load(save(t)) == t
    ensures var first := RankFromCache(qa, store, readDataset, embed, save, load, query, embedQuery, related, topN);
            var second := RankFromCache(qa, first.1, readDataset, embed, save, load, query, embedQuery, related, topN);
            second == first
  {
    LookupIdempotent(qa, store, readDataset, embed, save, load);
  }
}

=== FILE: normalizer.dfy ===
/** The text normaliser `reprocess` (qa/utils.py): newlines become spaces,
    tabs are deleted, and every whitespace run collapses to one space. */
module Normalizer {
  import opened Seqs
  import opened Text

  /** Text in normal form: the only whitespace character is `' '`, and no
      two whitespace characters are adjacent. */
  predicate Normal(s: string)
  {
    && (forall k | 0 <= k < |s| :: IsSpace(s[k]) ==> s[k] == ' ')
    && (forall k | 0 <= k < |s| - 1 :: !(IsSpace(s[k]) && IsSpace(s[k + 1])))
  }

  /** Python's `s.replace(c, rep)` for a one-character `c`. */
  function Replace(s: string, c: char, rep: string): (r: string)
    ensures c !in rep ==> c !in r
    ensures c !in s ==> r == s
    decreases |s|
  {
    if |s| == 0 then ""
    else
      var head := if s[0] == c then rep else [s[0]];
      assert s == [s[0]] + s[1..];
      head + Replace(s[1..], c, rep)
  }

  /** Every character of the replacement comes from `s` or from `rep`, and
      replacing a whitespace character by whitespace keeps the non-whitespace
      characters of `s` in order. */
  lemma {:induction false} ReplaceProperties(s: string, c: char, rep: string)
    ensures forall d | d in Replace(s, c, rep) :: d in s || d in rep
    ensures IsSpace(c) && AllSpace(rep) ==> RemoveWs(Replace(s, c, rep)) == RemoveWs(s)
    decreases |s|
  {
    if |s| > 0 {
      var head := if s[0] == c then rep else [s[0]];
      var rest := Replace(s[1..], c, rep);
      ReplaceProperties(s[1..], c, rep);
      assert Replace(s, c, rep) == head + rest;
      assert s == [s[0]] + s[1..];
      RemoveWsAppend(head, rest);
      RemoveWsAppend([s[0]], s[1..]);
      if AllSpace(rep) {
        RemoveWsOfAllSpace(rep);
      }
    }
  }

  /** `str.replace` works occurrence by occurrence: replacing in a
      concatenation replaces in each part, and a single character is
      swapped for `rep` exactly when it is `c`. */
  lemma {:induction false} ReplaceAppend(a: string, b: string, c: char, rep: string)
    ensures Replace(a + b, c, rep) == Replace(a, c, rep) + Replace(b, c, rep)
    ensures |a| == 1 ==> Replace(a, c, rep) == (if a[0] == c then rep else a)
    decreases |a|
  {
    if |a| == 0 {
      assert a + b == b;
    } else {
      var head := if a[0] == c then rep else [a[0]];
      assert (a + b)[0] == a[0];
      assert (a + b)[1..] == a[1..] + b;
      ReplaceAppend(a[1..], b, c, rep);
      calc {
        Replace(a + b, c, rep);
        head + Replace(a[1..] + b, c, rep);
        head + (Replace(a[1..], c, rep) + Replace(b, c, rep));
        { AppendAssoc(head, Replace(a[1..], c, rep), Replace(b, c, rep)); }
        (head + Replace(a[1..], c, rep)) + Replace(b, c, rep);
        Replace(a, c, rep) + Replace(b, c, rep);
      }
      if |a| == 1 {
        assert a[1..] == [] && a == [a[0]];
      }
    }
  }

  /** Python's `re.sub('\s+', ' ', s)` as a left-to-right scan: the first
      whitespace character of a run emits one space and the rest of the run
      emits nothing. `inRun` says whether the previous character was
      whitespace. */
  function Squeeze(s: string, inRun: bool): (r: string)
    ensures |r| <= |s|
    decreases |s|
  {
    if |s| == 0 then ""
    else if IsSpace(s[0]) then (if inRun then "" else " ") + Squeeze(s[1..], true)
    else [s[0]] + Squeeze(s[1..], false)
  }

  /** `re.sub('\s+', ' ', s)`: the result is normal, keeps every
      non-whitespace character in order, and starts and ends with
      whitespace exactly when `s` does, since a run is replaced and never
      trimmed. */
  function Collapse(s: string): (r: string)
    ensures Normal(r)
    ensures RemoveWs(r) == RemoveWs(s)
    ensures |s| > 0 ==> |r| > 0 && (IsSpace(r[0]) <==> IsSpace(s[0]))
    ensures |s| > 0 ==> (IsSpace(r[|r| - 1]) <==> IsSpace(s[|s| - 1]))
  {
    SqueezeProperties(s, false);
    Squeeze(s, false)
  }

  /** What the scan guarantees: its output is normal, it keeps every
      non-whitespace character in order, and a leading or trailing
      whitespace run outside a run is kept as one space, not trimmed. */
  lemma SqueezeProperties(s: string, inRun: bool)
    ensures Normal(Squeeze(s, inRun))
    ensures RemoveWs(Squeeze(s, inRun)) == RemoveWs(s)
    ensures inRun && |Squeeze(s, inRun)| > 0 ==> !IsSpace(Squeeze(s, inRun)[0])
    ensures !inRun && |s| > 0 ==>
              |Squeeze(s, inRun)| > 0 && (IsSpace(Squeeze(s, inRun)[0]) <==> IsSpace(s[0]))
    ensures |Squeeze(s, inRun)| == 0 ==> AllSpace(s)
    ensures |Squeeze(s, inRun)| > 0 ==>
              |s| > 0 && (IsSpace(Squeeze(s, inRun)[|Squeeze(s, inRun)| - 1]) <==> IsSpace(s[|s| - 1]))
  {
    SqueezeKeeps(s, inRun);
    SqueezeShape(s, inRun);
  }

  /** The scan keeps every non-whitespace character in order. */
  lemma {:induction false} SqueezeKeeps(s: string, inRun: bool)
    ensures RemoveWs(Squeeze(s, inRun)) == RemoveWs(s)
    decreases |s|
  {
    if |s| > 0 {
      var head := if IsSpace(s[0]) then (if inRun then "" else " ") else [s[0]];
      var rest := Squeeze(s[1..], IsSpace(s[0]));
      SqueezeKeeps(s[1..], IsSpace(s[0]));
      var r := Squeeze(s, inRun);
      SqueezeUnfold(s, inRun, head, r);
      SqueezeStepContent(s, head, rest, r);
    }
  }

  /** The scan's output is normal and has whitespace at its ends where the
      input does. */
  lemma {:induction false} SqueezeShape(s: string, inRun: bool)
    ensures Normal(Squeeze(s, inRun))
    ensures inRun && |Squeeze(s, inRun)| > 0 ==> !IsSpace(Squeeze(s, inRun)[0])
    ensures !inRun && |s| > 0 ==>
              |Squeeze(s, inRun)| > 0 && (IsSpace(Squeeze(s, inRun)[0]) <==> IsSpace(s[0]))
    ensures |Squeeze(s, inRun)| == 0 ==> AllSpace(s)
    ensures |Squeeze(s, inRun)| > 0 ==>
              |s| > 0 && (IsSpace(Squeeze(s, inRun)[|Squeeze(s, inRun)| - 1]) <==> IsSpace(s[|s| - 1]))
    decreases |s|
  {
    if |s| > 0 {
      var head := if IsSpace(s[0]) then (if inRun then "" else " ") else [s[0]];
      var next := IsSpace(s[0]);
      var rest := Squeeze(s[1..], next);
      SqueezeShape(s[1..], next);
      var r := Squeeze(s, inRun);
      SqueezeUnfold(s, inRun, head, r);
      PrependNormal(head, rest);
      SqueezeStepEnds(s, inRun, head, rest, r);
    }
  }

  lemma SqueezeUnfold(s: string, inRun: bool, head: string, r: string)
    requires |s| > 0 && r == Squeeze(s, inRun)
    requires head == if IsSpace(s[0]) then (if inRun then "" else " ") else [s[0]]
    ensures r == head + Squeeze(s[1..], IsSpace(s[0]))
  {
  }

  /** One scan step keeps the non-whitespace characters. */
  lemma {:induction false} SqueezeStepContent(s: string, head: string, rest: string, r: string)
    requires |s| > 0 && r == head + rest
    requires head == [s[0]] || (IsSpace(s[0]) && AllSpace(head))
    requires RemoveWs(rest) == RemoveWs(s[1..])
    ensures RemoveWs(r) == RemoveWs(s)
  {
    assert s == [s[0]] + s[1..];
    RemoveWsAppend([s[0]], s[1..]);
    RemoveWsAppend(head, rest);
    if head != [s[0]] {
      RemoveWsOfAllSpace(head);
      RemoveWsOfAllSpace([s[0]]);
    }
  }

  /** One scan step and the whitespace at either end. */
  lemma {:induction false} SqueezeStepEnds(s: string, inRun: bool, head: string, rest: string, r: string)
    requires |s| > 0 && r == head + rest
    requires head == if IsSpace(s[0]) then (if inRun then "" else " ") else [s[0]]
    requires IsSpace(s[0]) && |rest| > 0 ==> !IsSpace(rest[0])
    requires !IsSpace(s[0]) && |s| > 1 ==> |rest| > 0
    requires |rest| == 0 ==> AllSpace(s[1..])
    requires |rest| > 0 ==> |s| > 1 && (IsSpace(rest[|rest| - 1]) <==> IsSpace(s[|s| - 1]))
    ensures inRun && |r| > 0 ==> !IsSpace(r[0])
    ensures !inRun ==> |r| > 0 && (IsSpace(r[0]) <==> IsSpace(s[0]))
    ensures |r| == 0 ==> AllSpace(s)
    ensures |r| > 0 ==> (IsSpace(r[|r| - 1]) <==> IsSpace(s[|s| - 1]))
  {
    if |rest| == 0 {
      assert forall k | 1 <= k < |s| :: s[k] == s[1..][k - 1];
    } else {
      assert r[|r| - 1] == rest[|rest| - 1];
    }
  }

  /** Prepending at most one character keeps normal form when it cannot
      create two adjacent whitespace characters. */
  lemma {:induction false} PrependNormal(head: string, rest: string)
    requires |head| <= 1
    requires |head| == 1 && IsSpace(head[0]) ==> head[0] == ' ' && (|rest| > 0 ==> !IsSpace(rest[0]))
    requires Normal(rest)
    ensures Normal(head + rest)
  {
    var r := head + rest;
    forall k | 0 <= k < |r| - 1
      ensures !(IsSpace(r[k]) && IsSpace(r[k + 1]))
    {
      if k >= |head| {
        assert r[k] == rest[k - |head|] && r[k + 1] == rest[k + 1 - |head|];
      } else {
        assert r[k + 1] == rest[0];
      }
    }
    forall k | 0 <= k < |r| && IsSpace(r[k])
      ensures r[k] == ' '
    {
      if k >= |head| {
        assert r[k] == rest[k - |head|];
      }
    }
  }

  /** `reprocess(text)`: replace newlines by spaces, delete tabs, then
      collapse whitespace runs. */
  function Reprocess(text: string): (r: string)
    ensures '\n' !in r && '\t' !in r
    ensures Normal(r)
    ensures RemoveWs(r) == RemoveWs(text)
  {
    var noNewlines := Replace(text, '\n', " ");
    var noTabs := Replace(noNewlines, '\t', "");
    var r := Collapse(noTabs);
    ReplaceProperties(text, '\n', " ");
    ReplaceProperties(noNewlines, '\t', "");
    assert forall k | 0 <= k < |r| :: r[k] != '\n' && r[k] != '\t';
    r
  }

  /** A normal string is a fixed point of the scan, starting outside a run,
      or inside one when it does not start with whitespace. */
  lemma {:induction false} SqueezeOfNormal(s: string, inRun: bool)
    requires Normal(s)
    requires inRun && |s| > 0 ==> !IsSpace(s[0])
    ensures Squeeze(s, inRun) == s
    decreases |s|
  {
    if |s| > 0 {
      assert Normal(s[1..]) by {
        forall k | 0 <= k < |s| - 2 ensures !(IsSpace(s[1..][k]) && IsSpace(s[1..][k + 1])) {
          assert s[1..][k] == s[k + 1] && s[1..][k + 1] == s[k + 2];
        }
      }
      if IsSpace(s[0]) {
        assert |s| > 1 ==> !IsSpace(s[1..][0]) by {
          if |s| > 1 { assert s[1..][0] == s[1]; }
        }
        SqueezeOfNormal(s[1..], true);
        assert s == " " + s[1..];
      } else {
        SqueezeOfNormal(s[1..], false);
        assert s == [s[0]] + s[1..];
      }
    }
  }

  /** `reprocess` is idempotent. */
  lemma ReprocessIdempotent(text: string)
    ensures Reprocess(Reprocess(text)) == Reprocess(text)
  {
    var r := Reprocess(text);
    SqueezeOfNormal(r, false);
  }

  /** The characterisation of the collapse through `str.split()`: the words
      of `s` joined by single spaces, plus one space in front when `s`
      starts with whitespace and one at the end when it ends with
      whitespace; an all-whitespace non-empty `s` becomes a single space. */
  function CollapseBySplit(s: string): string
  {
    if AllSpace(s) then (if |s| == 0 then "" else " ")
    else
      (if IsSpace(s[0]) then " " else "") + Join(SplitWs(s), " ")
      + (if IsSpace(s[|s| - 1]) then " " else "")
  }

  lemma {:induction false} SqueezeWord(w: string, x: string, inRun: bool)
    requires NoSpace(w)
    requires |w| > 0
    ensures Squeeze(w + x, inRun) == w + Squeeze(x, false)
    decreases |w|
  {
    assert (w + x)[0] == w[0];
    assert (w + x)[1..] == w[1..] + x;
    if |w| == 1 {
      assert w[1..] + x == x;
    } else {
      SqueezeWord(w[1..], x, false);
    }
    assert w == [w[0]] + w[1..];
  }

  lemma {:induction false} SqueezeRun(p: string, x: string, inRun: bool)
    requires AllSpace(p)
    requires |p| > 0
    ensures Squeeze(p + x, inRun) == (if inRun then "" else " ") + Squeeze(x, true)
    decreases |p|
  {
    assert (p + x)[0] == p[0];
    assert (p + x)[1..] == p[1..] + x;
    if |p| == 1 {
      assert p[1..] + x == x;
    } else {
      SqueezeRun(p[1..], x, true);
    }
  }

  /** The whitespace run at the start of `s` and the text after it. */
  lemma {:induction false} LeadingRun(s: string, i: nat)
    requires i == LeadingSpaces(s)
    ensures AllSpace(s[..i]) && s == s[..i] + s[i..]
    ensures |s| > 0 && IsSpace(s[0]) ==> i > 0
    ensures i < |s| ==> !IsSpace(s[i..][0])
  {
    LeadingSpacesAreSpaces(s);
    assert forall k | 0 <= k < i :: s[..i][k] == s[k];
  }

  lemma {:induction false} JoinCons(w: string, ws: seq<string>, sep: string)
    requires |ws| > 0
    ensures Join([w] + ws, sep) == w + sep + Join(ws, sep)
  {
    assert ([w] + ws)[1..] == ws;
  }

  lemma ConcatAssoc(a: string, b: string, c: string, d: string)
    ensures a + (b + (c + d)) == a + b + c + d
  {
  }

  /** The scan of a string starting with a non-space, from either state:
      its words joined by single spaces, plus one trailing space if it ends
      in whitespace. */
  lemma {:induction false} SqueezeFromWord(s: string, inRun: bool)
    requires |s| > 0 && !IsSpace(s[0])
    ensures Squeeze(s, inRun) == Join(SplitWs(s), " ") + (if IsSpace(s[|s| - 1]) then " " else "")
    decreases |s|
  {
    var n := WordLength(s);
    var w := s[..n];
    var rest := s[n..];
    LeadingWord(s, n, w, rest);
    LeadingWordSplit(s, n, w, rest);
    SqueezeWord(w, rest, inRun);
    if |rest| == 0 {
      assert SplitWs(rest) == [];
      assert s == w && !IsSpace(s[|s| - 1]);
      assert Squeeze(s, inRun) == w + "";
    } else {
      SqueezeFromRun(s, inRun, w, rest);
    }
  }

  /** A string starting with a non-space is its first word followed by
      the rest, which is empty or starts with whitespace. */
  lemma {:induction false} LeadingWord(s: string, n: nat, w: string, rest: string)
    requires |s| > 0 && !IsSpace(s[0])
    requires n == WordLength(s) && n <= |s| && w == s[..n] && rest == s[n..]
    ensures |w| > 0 && NoSpace(w) && s == w + rest
    ensures |rest| > 0 ==> IsSpace(rest[0])
  {
    WordIsSpaceFree(s);
    forall k | 0 <= k < |w| ensures !IsSpace(w[k]) {
      assert w[k] == s[k];
    }
    if |rest| > 0 {
      assert rest[0] == s[n];
    }
  }

  /** ... and it splits into that word and the words of the rest. */
  lemma {:induction false} LeadingWordSplit(s: string, n: nat, w: string, rest: string)
    requires |s| > 0 && !IsSpace(s[0])
    requires n == WordLength(s) && n <= |s| && w == s[..n] && rest == s[n..]
    ensures SplitWs(s) == [w] + SplitWs(rest)
  {
    var t := TrimLeft(s);
    assert LeadingSpaces(s) == 0;
    assert t == s;
    SplitWsStep(s, t, n);
  }

  lemma {:induction false} SqueezeFromRun(s: string, inRun: bool, w: string, rest: string)
    requires |rest| > 0 && |w| > 0 && NoSpace(w) && s == w + rest
    requires IsSpace(rest[0])
    requires SplitWs(s) == [w] + SplitWs(rest)
    requires Squeeze(s, inRun) == w + Squeeze(rest, false)
    ensures Squeeze(s, inRun) == Join(SplitWs(s), " ") + (if IsSpace(s[|s| - 1]) then " " else "")
    decreases |rest|
  {
    var i := LeadingSpaces(rest);
    SqueezeLeadingRun(rest, i);
    LeadingRunRest(rest, i);
    var u := rest[i..];
    assert s[|s| - 1] == rest[|rest| - 1];
    if |u| == 0 {
      assert Squeeze(s, inRun) == w + " ";
      assert SplitWs(s) == [w] + [] == [w];
      SqueezeFinalRun(s, inRun, w);
    } else {
      assert Squeeze(s, inRun) == w + (" " + Squeeze(u, true));
      SqueezeFromWord(u, true);
      SqueezeWordThenRest(s, inRun, w, u);
    }
  }

  lemma {:induction false} SqueezeFinalRun(s: string, inRun: bool, w: string)
    requires |s| > 0 && IsSpace(s[|s| - 1])
    requires SplitWs(s) == [w]
    requires Squeeze(s, inRun) == w + " "
    ensures Squeeze(s, inRun) == Join(SplitWs(s), " ") + (if IsSpace(s[|s| - 1]) then " " else "")
  {
  }

  lemma {:induction false} SqueezeWordThenRest(s: string, inRun: bool, w: string, u: string)
    requires |s| > 0 && |u| > 0 && !IsSpace(u[0]) && u[|u| - 1] == s[|s| - 1]
    requires SplitWs(s) == [w] + SplitWs(u)
    requires Squeeze(s, inRun) == w + (" " + Squeeze(u, true))
    requires Squeeze(u, true) == Join(SplitWs(u), " ") + (if IsSpace(u[|u| - 1]) then " " else "")
    ensures Squeeze(s, inRun) == Join(SplitWs(s), " ") + (if IsSpace(s[|s| - 1]) then " " else "")
  {
    var trail := if IsSpace(s[|s| - 1]) then " " else "";
    SplitWsWords(u);
    assert SplitWs(u) != [];
    var j := Join(SplitWs(u), " ");
    ConcatAssoc(w, " ", j, trail);
    JoinCons(w, SplitWs(u), " ");
  }

  /** A string starting with a whitespace run: one space for the run, then
      the scan of the rest from inside a run. */
  lemma {:induction false} SqueezeLeadingRun(s: string, i: nat)
    requires |s| > 0 && IsSpace(s[0]) && i == LeadingSpaces(s)
    ensures Squeeze(s, false) == " " + Squeeze(s[i..], true)
  {
    LeadingRun(s, i);
    SqueezeRun(s[..i], s[i..], false);
  }

  /** What follows the leading run: the same words, nothing at all exactly
      when `s` is all whitespace, and otherwise a string starting with a
      non-space and ending where `s` ends. */
  lemma {:induction false} LeadingRunRest(s: string, i: nat)
    requires i == LeadingSpaces(s)
    ensures SplitWs(s) == SplitWs(s[i..])
    ensures i == |s| <==> AllSpace(s)
    ensures i < |s| ==> !IsSpace(s[i..][0]) && s[i..][|s[i..]| - 1] == s[|s| - 1]
  {
    SplitWsAfterTrim(s);
    LeadingSpacesAreSpaces(s);
    if i < |s| {
      var u := s[i..];
      assert u[0] == s[i] && u[|u| - 1] == s[|s| - 1];
      assert !IsSpace(s[i]) && !AllSpace(s);
    } else {
      assert AllSpace(s);
    }
  }

  lemma {:induction false} CollapseFromSpace(s: string)
    requires |s| > 0 && IsSpace(s[0])
    ensures Collapse(s) == CollapseBySplit(s)
  {
    var i := LeadingSpaces(s);
    SqueezeLeadingRun(s, i);
    LeadingRunRest(s, i);
    var u := s[i..];
    if |u| == 0 {
      assert Squeeze(u, true) == "";
    } else {
      SqueezeFromWord(u, true);
      RunThenWords(s, u);
    }
  }

  /** One space for the leading run, then the words of the rest joined by
      single spaces, is the split-and-join form of `s`. */
  lemma {:induction false} RunThenWords(s: string, u: string)
    requires |s| > 0 && IsSpace(s[0]) && !AllSpace(s)
    requires |u| > 0 && u[|u| - 1] == s[|s| - 1] && SplitWs(s) == SplitWs(u)
    requires Squeeze(u, true) == Join(SplitWs(u), " ") + (if IsSpace(u[|u| - 1]) then " " else "")
    ensures " " + Squeeze(u, true) == CollapseBySplit(s)
  {
    var trail := if IsSpace(s[|s| - 1]) then " " else "";
    var j := Join(SplitWs(s), " ");
    assert CollapseBySplit(s) == " " + j + trail;
    assert " " + (j + trail) == " " + j + trail;
  }

  /** Every whitespace run becomes exactly one space: the scanning collapse
      agrees with the split-and-join characterisation on every input. */
  lemma {:induction false} CollapseMatchesSplitJoin(s: string)
    ensures Collapse(s) == CollapseBySplit(s)
  {
    if |s| == 0 {
    } else if !IsSpace(s[0]) {
      CollapseFromWord(s);
    } else {
      CollapseFromSpace(s);
    }
  }

  /** `u` and `v` differ at most in which whitespace character stands
      where: same length, whitespace at the same positions, and the same
      character everywhere else. */
  predicate SameUpToSpaces(u: string, v: string)
  {
    && |u| == |v|
    && forall k | 0 <= k < |u| :: (IsSpace(u[k]) <==> IsSpace(v[k])) && (!IsSpace(u[k]) ==> u[k] == v[k])
  }

  lemma SameUpToSpacesAppend(a: string, b: string, c: string, d: string)
    requires SameUpToSpaces(a, b) && SameUpToSpaces(c, d)
    ensures SameUpToSpaces(a + c, b + d)
  {
    forall k | 0 <= k < |a + c|
      ensures (IsSpace((a + c)[k]) <==> IsSpace((b + d)[k])) && (!IsSpace((a + c)[k]) ==> (a + c)[k] == (b + d)[k])
    {
      if k < |a| {
        assert (a + c)[k] == a[k] && (b + d)[k] == b[k];
      } else {
        assert (a + c)[k] == c[k - |a|] && (b + d)[k] == d[k - |a|];
      }
    }
  }

  /** The scan only asks whether a character is whitespace, so swapping
      one whitespace character for another changes nothing. */
  lemma {:induction false} SqueezeRespectsSpaces(u: string, v: string, inRun: bool)
    requires SameUpToSpaces(u, v)
    ensures Squeeze(u, inRun) == Squeeze(v, inRun)
    decreases |u|
  {
    if |u| > 0 {
      assert forall k | 0 <= k < |u| - 1 :: u[1..][k] == u[k + 1] && v[1..][k] == v[k + 1];
      SqueezeRespectsSpaces(u[1..], v[1..], IsSpace(u[0]));
    }
  }

  /** Turning newlines into spaces before deleting tabs only swaps one
      whitespace character for another. */
  lemma {:induction false} NewlineThenTabs(t: string)
    ensures SameUpToSpaces(Replace(Replace(t, '\n', " "), '\t', ""), Replace(t, '\t', ""))
    decreases |t|
  {
    if |t| > 0 {
      var x := t[0];
      var rest := t[1..];
      assert t == [x] + rest;
      var h := if x == '\n' then " " else [x];
      ReplaceAppend([x], rest, '\n', " ");
      ReplaceAppend(h, Replace(rest, '\n', " "), '\t', "");
      ReplaceAppend([x], rest, '\t', "");
      NewlineThenTabs(rest);
      var g := Replace(h, '\t', "");
      var f := Replace([x], '\t', "");
      assert SameUpToSpaces(g, f) by {
        ReplaceAppend(h, [], '\t', "");
        assert h + [] == h;
      }
      SameUpToSpacesAppend(g, f, Replace(Replace(rest, '\n', " "), '\t', ""), Replace(rest, '\t', ""));
    }
  }

  /** `reprocess` is the split-and-join collapse of the text with its tabs
      deleted: turning newlines into spaces first makes no difference,
      since a newline is already whitespace to `\s+`. */
  lemma {:induction false} ReprocessBySplit(t: string)
    ensures Reprocess(t) == CollapseBySplit(Replace(t, '\t', ""))
  {
    var a := Replace(Replace(t, '\n', " "), '\t', "");
    var b := Replace(t, '\t', "");
    NewlineThenTabs(t);
    SqueezeRespectsSpaces(a, b, false);
    CollapseMatchesSplitJoin(b);
  }

  lemma {:induction false} CollapseFromWord(s: string)
    requires |s| > 0 && !IsSpace(s[0])
    ensures Collapse(s) == CollapseBySplit(s)
  {
    SqueezeFromWord(s, false);
    assert !AllSpace(s);
    assert CollapseBySplit(s) == "" + Join(SplitWs(s), " ") + (if IsSpace(s[|s| - 1]) then " " else "");
  }

  lemma ReplaceCons(x: char, s: string, c: char, rep: string)
    ensures Replace([x] + s, c, rep) == (if x == c then rep else [x]) + Replace(s, c, rep)
  {
    assert ([x] + s)[1..] == s;
  }

  lemma SqueezeCons(x: char, s: string, inRun: bool)
    ensures Squeeze([x] + s, inRun)
            == (if IsSpace(x) then (if inRun then "" else " ") else [x]) + Squeeze(s, IsSpace(x))
  {
    assert ([x] + s)[1..] == s;
  }

  lemma TabExampleReplace()
    ensures Replace("a\tb", '\n', " ") == "a\tb"
    ensures Replace("a\tb", '\t', "") == "ab"
  {
    ReplaceCons('b', "", '\n', " ");
    ReplaceCons('\t', "b", '\n', " ");
    ReplaceCons('a', "\tb", '\n', " ");
    ReplaceCons('b', "", '\t', "");
    ReplaceCons('\t', "b", '\t', "");
    ReplaceCons('a', "\tb", '\t', "");
  }

  lemma TabExampleCollapse()
    ensures Collapse("ab") == "ab"
  {
    SqueezeCons('b', "", false);
    SqueezeCons('a', "b", false);
  }

  /** A tab is deleted outright, so the words on either side of it join. */
  lemma ReprocessTabExample()
    ensures Reprocess("a\tb") == "ab"
  {
    TabExampleReplace();
    TabExampleCollapse();
  }

  lemma NewlineExampleReplace()
    ensures Replace("a\nb", '\n', " ") == "a b"
    ensures Replace("a b", '\t', "") == "a b"
  {
    ReplaceCons('b', "", '\n', " ");
    ReplaceCons('\n', "b", '\n', " ");
    ReplaceCons('a', "\nb", '\n', " ");
    ReplaceCons('b', "", '\t', "");
    ReplaceCons(' ', "b", '\t', "");
    ReplaceCons('a', " b", '\t', "");
  }

  lemma NewlineExampleCollapse()
    ensures Collapse("a b") == "a b"
  {
    SqueezeCons('b', "", false);
    SqueezeCons(' ', "b", false);
    SqueezeCons('a', " b", false);
  }

  /** A newline becomes a space. */
  lemma ReprocessNewlineExample()
    ensures Reprocess("a\nb") == "a b"
  {
    NewlineExampleReplace();
    NewlineExampleCollapse();
  }

  lemma RunsExampleNewlines()
    ensures Replace(" \n\ta\n", '\n', " ") == "  \ta "
  {
    var s := " \n\ta\n";
    assert s[1..][1..][1..][1..][1..] == "";
    assert Replace(s[1..][1..][1..][1..], '\n', " ") == " ";
    assert Replace(s[1..][1..][1..], '\n', " ") == "a ";
    assert Replace(s[1..][1..], '\n', " ") == "\ta ";
    assert Replace(s[1..], '\n', " ") == " \ta ";
  }

  lemma RunsExampleTabs()
    ensures Replace("  \ta ", '\t', "") == "  a "
  {
    ReplaceCons(' ', "", '\t', "");
    ReplaceCons('a', " ", '\t', "");
    ReplaceCons('\t', "a ", '\t', "");
    ReplaceCons(' ', "\ta ", '\t', "");
    ReplaceCons(' ', " \ta ", '\t', "");
  }

  lemma RunsExampleCollapse()
    ensures Collapse("  a ") == " a "
  {
    SqueezeCons(' ', "", false);
    SqueezeCons('a', " ", true);
    SqueezeCons(' ', "a ", true);
    SqueezeCons(' ', " a ", false);
  }

  /** Leading and trailing runs become one space each rather than being
      trimmed. */
  lemma ReprocessRunsExample()
    ensures Reprocess(" \n\ta\n") == " a "
  {
    RunsExampleNewlines();
    RunsExampleTabs();
    RunsExampleCollapse();
  }
}

=== FILE: ranking.dfy ===
/** `strings_ranked_by_relatedness` (qa/utils.py, and the same algorithm in
    `BaseQA`, qa/qa.py): every row is scored against the query, the rows
    are sorted by descending score with Python's stable `list.sort`, and
    the first `top_n` texts and scores are returned. Sorting is modelled on
    row indices; the relatedness function and the query embedder are
    parameters. */
module Ranking {
  import opened Seqs
  import opened Results

  /** A row of the embeddings table: a text and its embedding. */
  datatype Row<E> = Row(text: string, embedding: E)

  /** Row `a` comes before row `b` in the sorted list: a higher score, or
      the same score and an earlier position (the sort is stable, and
      `reverse=True` keeps equal rows in their original order). */
  predicate Precedes(s: seq<real>, a: nat, b: nat)
  {
    a < |s| && b < |s| && (s[a] > s[b] || (s[a] == s[b] && a < b))
  }

  /** Every pair of positions in `xs` is in `Precedes` order. */
  predicate RankedBy(s: seq<real>, xs: seq<nat>)
  {
    forall a, b | 0 <= a < b < |xs| :: Precedes(s, xs[a], xs[b])
  }

  predicate Below(xs: seq<nat>, n: nat)
  {
    forall k | 0 <= k < |xs| :: xs[k] < n
  }

  /** The indices `0 .. n-1` in increasing order. */
  function Range(n: nat): (r: seq<nat>)
    ensures |r| == n && forall k | 0 <= k < n :: r[k] == k
  {
    if n == 0 then [] else Range(n - 1) + [n - 1]
  }

  /** Insert index `j`, later than every index already placed, after every
      placed index whose score is at least its own. */
  function Insert(s: seq<real>, xs: seq<nat>, j: nat): (r: seq<nat>)
    requires j < |s| && Below(xs, j) && RankedBy(s, xs)
    ensures multiset(r) == multiset(xs) + multiset{j}
    ensures Below(r, j + 1) && RankedBy(s, r)
    decreases |xs|
  {
    if |xs| == 0 then [j]
    else
      var last := xs[|xs| - 1];
      if s[last] >= s[j] then
        InsertAfter(s, xs, j);
        xs + [j]
      else
        var init := xs[..|xs| - 1];
        assert xs == init + [last];
        var r := Insert(s, init, j);
        InsertBefore(s, init, last, j, r);
        r + [last]
  }

  lemma {:induction false} InsertAfter(s: seq<real>, xs: seq<nat>, j: nat)
    requires j < |s| && |xs| > 0 && Below(xs, j) && RankedBy(s, xs)
    requires s[xs[|xs| - 1]] >= s[j]
    ensures Below(xs + [j], j + 1) && RankedBy(s, xs + [j])
  {
    var r := xs + [j];
    forall a, b | 0 <= a < b < |r| ensures Precedes(s, r[a], r[b]) {
      if b == |xs| {
        assert r[a] == xs[a] && r[b] == j;
        if a < |xs| - 1 {
          assert Precedes(s, xs[a], xs[|xs| - 1]);
        }
      } else {
        assert r[a] == xs[a] && r[b] == xs[b];
      }
    }
  }

  lemma {:induction false} InsertBefore(s: seq<real>, init: seq<nat>, last: nat, j: nat, r: seq<nat>)
    requires j < |s| && last < j && s[last] < s[j]
    requires Below(init, j) && RankedBy(s, init + [last])
    requires multiset(r) == multiset(init) + multiset{j}
    requires Below(r, j + 1) && RankedBy(s, r)
    ensures Below(r + [last], j + 1) && RankedBy(s, r + [last])
  {
    var xs := init + [last];
    var t := r + [last];
    forall k | 0 <= k < |r| ensures Precedes(s, r[k], last) {
      assert r[k] in multiset(r);
      if r[k] == j {
      } else {
        assert r[k] in multiset(init);
        var m :| 0 <= m < |init| && init[m] == r[k];
        assert xs[m] == r[k] && xs[|init|] == last;
      }
    }
    forall a, b | 0 <= a < b < |t| ensures Precedes(s, t[a], t[b]) {
      if b == |r| {
        assert t[a] == r[a];
      } else {
        assert t[a] == r[a] && t[b] == r[b];
      }
    }
  }

  /** The order of the rows after `sort(key=score, reverse=True)`: the
      indices `0 .. n-1`, each once, ranked by `Precedes`. */
  function RankOrder(s: seq<real>, n: nat): (r: seq<nat>)
    requires n <= |s|
    ensures multiset(r) == multiset(Range(n))
    ensures Below(r, n) && RankedBy(s, r)
  {
    if n == 0 then []
    else
      var r := Insert(s, RankOrder(s, n - 1), n - 1);
      assert Range(n) == Range(n - 1) + [n - 1];
      r
  }

  lemma {:induction false} RankedTail(s: seq<real>, xs: seq<nat>)
    requires |xs| > 0 && RankedBy(s, xs)
    ensures RankedBy(s, xs[1..])
    ensures multiset(xs[1..]) == multiset(xs) - multiset{xs[0]}
  {
    assert xs == [xs[0]] + xs[1..];
    forall a, b | 0 <= a < b < |xs| - 1 ensures Precedes(s, xs[1..][a], xs[1..][b]) {
      assert xs[1..][a] == xs[a + 1] && xs[1..][b] == xs[b + 1];
    }
  }

  /** The ranking is determined: two orderings of the same indices that
      are both ranked by `Precedes` are the same ordering. */
  lemma {:induction false} RankedUnique(s: seq<real>, xs: seq<nat>, ys: seq<nat>)
    requires RankedBy(s, xs) && RankedBy(s, ys)
    requires multiset(xs) == multiset(ys)
    ensures xs == ys
    decreases |xs|
  {
    assert |xs| == |multiset(xs)| == |ys|;
    if |xs| > 0 {
      var x := xs[0];
      var y := ys[0];
      assert x in multiset(ys) && y in multiset(xs);
      var k :| 0 <= k < |ys| && ys[k] == x;
      var m :| 0 <= m < |xs| && xs[m] == y;
      assert x == y;
      RankedTail(s, xs);
      RankedTail(s, ys);
      RankedUnique(s, xs[1..], ys[1..]);
      ConsTail(xs, xs[1..]);
      ConsTail(ys, ys[1..]);
    }
  }

  /** The positions `top_n` keeps: Python's `[:top_n]` of the sorted rows.
      They are distinct rows, ranked, and every row kept ranks ahead of
      every row dropped. */
  function TopRows(s: seq<real>, topN: int): (r: seq<nat>)
    ensures |r| == PrefixLength(|s|, topN)
    ensures Below(r, |s|) && RankedBy(s, r)
    ensures forall k, i | 0 <= k < |r| && 0 <= i < |s| && i !in r :: Precedes(s, r[k], i)
  {
    var order := RankOrder(s, |s|);
    var m := PrefixLength(|s|, topN);
    var r := order[..m];
    forall k, i | 0 <= k < m && 0 <= i < |s| && i !in r
      ensures Precedes(s, r[k], i)
    {
      assert Range(|s|)[i] == i;
      assert i in multiset(order);
      var l :| 0 <= l < |order| && order[l] == i;
      assert l >= m;
      assert r[k] == order[k];
    }
    r
  }

  /** The relatedness of every row to the query embedding. */
  function Scores<E>(q: E, rows: seq<Row<E>>, related: (E, E) -> real): (r: seq<real>)
    ensures |r| == |rows|
    ensures forall i | 0 <= i < |rows| :: r[i] == related(q, rows[i].embedding)
  {
    seq(|rows|, i requires 0 <= i < |rows| => related(q, rows[i].embedding))
  }

  datatype RankError =
    /** `zip(*[])` yields nothing, so unpacking it into two names raises. */
    NoRows

  /** `strings_ranked_by_relatedness(query, rows, top_n)`: the query is
      embedded, every row scored, and the texts and scores of the `top_n`
      best rows returned best first. With no rows the unpacking raises. */
  function StringsRankedByRelatedness<E>(query: string, rows: seq<Row<E>>, embedQuery: string -> E,
                                         related: (E, E) -> real, topN: int): (r: Result<(seq<string>, seq<real>), RankError>)
    ensures r.Failure? <==> |rows| == 0
    ensures r.Success? ==> |r.value.0| == |r.value.1| == PrefixLength(|rows|, topN)
    ensures r.Success? ==> forall a, b | 0 <= a < b < |r.value.1| :: r.value.1[a] >= r.value.1[b]
    ensures r.Success? ==>
              var s := Scores(embedQuery(query), rows, related);
              var top := TopRows(s, topN);
              forall k | 0 <= k < |top| :: r.value.0[k] == rows[top[k]].text && r.value.1[k] == s[top[k]]
  {
    if |rows| == 0 then Failure(NoRows)
    else
      var s := Scores(embedQuery(query), rows, related);
      var top := TopRows(s, topN);
      Success((TopTexts(rows, top), TopScores(s, top)))
  }

  /** The texts of the rows at the given positions. */
  function TopTexts<E>(rows: seq<Row<E>>, top: seq<nat>): (r: seq<string>)
    requires Below(top, |rows|)
    ensures |r| == |top| && forall k | 0 <= k < |top| :: r[k] == rows[top[k]].text
  {
    seq(|top|, k requires 0 <= k < |top| => rows[top[k]].text)
  }

  /** The scores of ranked positions, which therefore never increase. */
  function TopScores(s: seq<real>, top: seq<nat>): (r: seq<real>)
    requires Below(top, |s|) && RankedBy(s, top)
    ensures |r| == |top| && forall k | 0 <= k < |top| :: r[k] == s[top[k]]
    ensures forall a, b | 0 <= a < b < |r| :: r[a] >= r[b]
  {
    var r := seq(|top|, k requires 0 <= k < |top| => s[top[k]]);
    assert forall a, b | 0 <= a < b < |top| :: Precedes(s, top[a], top[b]);
    r
  }

  /** The reference characterisation of the sort: any ordering of all the
      rows that is ranked by descending score, ties in original order, is
      the one the sort produces. */
  lemma {:induction false} RankOrderIsStableSort(s: seq<real>, xs: seq<nat>)
    requires multiset(xs) == multiset(Range(|s|)) && RankedBy(s, xs)
    ensures RankOrder(s, |s|) == xs
  {
    RankedUnique(s, RankOrder(s, |s|), xs);
  }

  lemma RangeThree()
    ensures multiset(Range(3)) == multiset([1, 0, 2])
  {
    assert Range(3) == [0, 1, 2];
  }

  lemma StableExampleRanked()
    ensures RankedBy([1.0, 2.0, 1.0], [1, 0, 2])
  {
    var s := [1.0, 2.0, 1.0];
    var xs := [1, 0, 2];
    assert Precedes(s, 1, 0) && Precedes(s, 1, 2) && Precedes(s, 0, 2);
    forall a, b | 0 <= a < b < 3 ensures Precedes(s, xs[a], xs[b]) {
      if a == 0 && b == 1 {
      } else if a == 0 {
      } else {
      }
    }
  }

  lemma StableExampleOrder()
    ensures RankOrder([1.0, 2.0, 1.0], 3) == [1, 0, 2]
  {
    RangeThree();
    StableExampleRanked();
    RankOrderIsStableSort([1.0, 2.0, 1.0], [1, 0, 2]);
  }

  lemma TopRowsExample(topN: int)
    requires topN == 2 || topN == -1
    ensures TopRows([1.0, 2.0, 1.0], topN) == [1, 0]
  {
    StableExampleOrder();
  }

  lemma ScoresExample(q: real, rows: seq<Row<real>>, related: (real, real) -> real)
    requires rows == [Row("a", 1.0), Row("b", 2.0), Row("c", 1.0)]
    requires forall x, e :: related(x, e) == e
    ensures Scores(q, rows, related) == [1.0, 2.0, 1.0]
  {
  }

  /** Three rows scored 1, 2 and 1 by a relatedness that returns the row's
      embedding: the best row first, then the two tied rows in their
      original order; `top_n` 2 keeps the first two, and `top_n` -1 drops
      the last one, as Python's slice does. */
  lemma RankingExample(query: string, rows: seq<Row<real>>, embedQuery: string -> real,
                       related: (real, real) -> real, topN: int)
    requires rows == [Row("a", 1.0), Row("b", 2.0), Row("c", 1.0)]
    requires forall x, e :: related(x, e) == e
    requires topN == 2 || topN == -1
    ensures StringsRankedByRelatedness(query, rows, embedQuery, related, topN)
            == Success((["b", "a"], [2.0, 1.0]))
  {
    var s := Scores(embedQuery(query), rows, related);
    ScoresExample(embedQuery(query), rows, related);
    TopRowsExample(topN);
    var top := TopRows(s, topN);
    assert top == [1, 0];
    assert TopTexts(rows, top) == ["b", "a"];
    assert TopScores(s, top) == [2.0, 1.0];
  }
}

=== FILE: results.dfy ===
/** The outcome of an operation that the source can abort with an
    exception. */
module Results {

  datatype Result<T, E> = Success(value: T) | Failure(error: E)
}

=== FILE: seqs.dfy ===
/** Small sequence helpers shared by the other modules. */
module Seqs {

  /** Concatenation of a sequence of sequences, in order. */
  function Flatten<T>(ss: seq<seq<T>>): seq<T>
  {
    if |ss| == 0 then [] else ss[0] + Flatten(ss[1..])
  }

  /** Concatenation regrouped, for proofs that would otherwise have to
      find it by extensionality. */
  lemma AppendAssoc<T>(a: seq<T>, b: seq<T>, c: seq<T>)
    ensures a + (b + c) == (a + b) + c
  {
  }

  lemma {:induction false} FlattenAppend<T>(a: seq<seq<T>>, b: seq<seq<T>>)
    ensures Flatten(a + b) == Flatten(a) + Flatten(b)
  {
    if |a| == 0 {
      assert a + b == b;
    } else {
      assert (a + b)[1..] == a[1..] + b;
      FlattenAppend(a[1..], b);
    }
  }

  /** Sum of the lengths of the pieces: the length of their concatenation. */
  lemma {:induction false} FlattenLength<T>(ss: seq<seq<T>>, n: nat)
    requires forall k | 0 <= k < |ss| :: |ss[k]| == n
    ensures |Flatten(ss)| == |ss| * n
  {
    if |ss| > 0 {
      FlattenLength(ss[1..], n);
    }
  }

  function Min(a: int, b: int): int { if a <= b then a else b }
  function Max(a: int, b: int): int { if a >= b then a else b }

  /** Length of Python's `xs[:stop]` for a list of length `n`: a negative
      `stop` counts from the end, and the result is clamped to `[0, n]`. */
  function PrefixLength(n: nat, stop: int): (len: nat)
    ensures len <= n
    ensures stop >= 0 ==> len == Min(stop, n)
    ensures stop < 0 ==> len == Max(n + stop, 0)
  {
    if stop >= 0 then Min(stop, n) else Max(n + stop, 0)
  }

  /** Python's `xs[start:stop]` for a non-negative `start` and `stop`. */
  function Slice<T>(xs: seq<T>, start: nat, stop: nat): (r: seq<T>)
    ensures start >= stop ==> r == []
    ensures start < stop <= |xs| ==> r == xs[start..stop]
  {
    var lo := Min(start, |xs|);
    var hi := Max(Min(stop, |xs|), lo);
    xs[lo..hi]
  }

  lemma {:induction false} FlattenCons<T>(x: seq<T>, xs: seq<seq<T>>)
    ensures Flatten([x] + xs) == x + Flatten(xs)
  {
    assert ([x] + xs)[1..] == xs;
  }

  /** A non-empty sequence is its head in front of its tail. */
  lemma ConsTail<T>(xs: seq<T>, ys: seq<T>)
    requires |xs| > 0 && ys == xs[1..]
    ensures [xs[0]] + ys == xs
  {
  }

  /** Every group holds exactly `w` elements. */
  predicate Full<T>(groups: seq<seq<T>>, w: nat)
  {
    forall k | 0 <= k < |groups| :: |groups[k]| == w
  }

  /** Every group holds between one and `w` elements, and all but the last
      hold exactly `w`. */
  predicate Packed<T>(groups: seq<seq<T>>, w: nat)
  {
    && (forall k | 0 <= k < |groups| :: 1 <= |groups[k]| <= w)
    && (forall k | 0 <= k < |groups| - 1 :: |groups[k]| == w)
  }

  /** Full groups followed by a packed tail are packed. */
  lemma {:induction false} FullThenPacked<T>(a: seq<seq<T>>, b: seq<seq<T>>, w: nat)
    requires w >= 1 && Full(a, w) && Packed(b, w)
    ensures Packed(a + b, w)
  {
    forall k | 0 <= k < |a + b|
      ensures 1 <= |(a + b)[k]| <= w
      ensures k < |a + b| - 1 ==> |(a + b)[k]| == w
    {
      if k >= |a| {
        assert (a + b)[k] == b[k - |a|];
      }
    }
  }

  /** Packed groups of `n` elements in all number `ceil(n / w)`. */
  lemma {:induction false} PackedCount<T>(groups: seq<seq<T>>, w: nat)
    requires w >= 1 && Packed(groups, w)
    ensures |groups| == (|Flatten(groups)| + w - 1) / w
  {
    if |groups| > 0 {
      var m := |groups| - 1;
      PackedLength(groups, w, m);
      DivCeil(|Flatten(groups)|, m, w, |groups[m]|);
    }
  }

  /** Packed groups hold `w` elements per group but the last, plus the
      last group's. */
  lemma {:induction false} PackedLength<T>(groups: seq<seq<T>>, w: nat, m: nat)
    requires Packed(groups, w) && m + 1 == |groups|
    ensures |Flatten(groups)| == m * w + |groups[m]|
  {
    var init := groups[..m];
    assert groups == init + [groups[m]];
    FlattenAppend(init, [groups[m]]);
    FlattenCons(groups[m], []);
    FlattenLength(init, w);
  }

  /** `n` elements in `m` full groups of `w` and a last group of `last`
      make `m + 1` groups, rounding up. */
  lemma DivCeil(n: nat, m: nat, w: nat, last: nat)
    requires 1 <= last <= w && n == m * w + last
    ensures (n + w - 1) / w == m + 1
  {
    assert n + w - 1 == (m + 1) * w + (last - 1);
    DivUnique(n + w - 1, w, m + 1, last - 1);
  }

  /** Euclidean division has one quotient. */
  lemma DivUnique(n: int, w: int, q: int, r: int)
    requires w > 0 && 0 <= r < w && n == q * w + r
    ensures n / w == q
  {
    var q' := n / w;
    var r' := n % w;
    assert n == q' * w + r';
    assert (q' - q) * w == r - r';
    if q' > q {
      MulAtLeast(q' - q, w);
    } else if q' < q {
      MulAtLeast(q - q', w);
    }
  }

  lemma MulAtLeast(d: int, w: int)
    requires d >= 1 && w > 0
    ensures d * w >= w
  {
    assert d * w == (d - 1) * w + w;
  }

}

=== FILE: text.dfy ===
/** The Python string primitives the core relies on: the whitespace class,
    `s.split(' ')`, `s.split()`, `sep.join(words)` and `s.strip()`. */
module Text {
  import opened Seqs

  /** The whitespace class used for regular-expression `\s`, `str.split()`
      and `str.strip()`: space, tab, newline, carriage return, vertical tab
      and form feed. */
  predicate IsSpace(c: char)
  {
    c == ' ' || c == '\t' || c == '\n' || c == '\r' || c == '\U{000B}' || c == '\U{000C}'
  }

  predicate NoSpace(s: string)
  {
    forall k | 0 <= k < |s| :: !IsSpace(s[k])
  }

  predicate AllSpace(s: string)
  {
    forall k | 0 <= k < |s| :: IsSpace(s[k])
  }

  /** `s` with every whitespace character deleted. */
  function RemoveWs(s: string): string
  {
    if |s| == 0 then ""
    else (if IsSpace(s[0]) then "" else [s[0]]) + RemoveWs(s[1..])
  }

  lemma {:induction false} RemoveWsAppend(a: string, b: string)
    ensures RemoveWs(a + b) == RemoveWs(a) + RemoveWs(b)
  {
    if |a| > 0 {
      assert (a + b)[1..] == a[1..] + b;
      RemoveWsAppend(a[1..], b);
    } else {
      assert a + b == b;
    }
  }

  lemma {:induction false} RemoveWsOfAllSpace(s: string)
    requires AllSpace(s)
    ensures RemoveWs(s) == ""
  {
    if |s| > 0 {
      RemoveWsOfAllSpace(s[1..]);
    }
  }

  lemma {:induction false} RemoveWsOfNoSpace(s: string)
    requires NoSpace(s)
    ensures RemoveWs(s) == s
  {
    if |s| > 0 {
      RemoveWsOfNoSpace(s[1..]);
    }
  }

  /** Python's `sep.join(words)`. */
  function Join(words: seq<string>, sep: string): string
  {
    if |words| == 0 then ""
    else if |words| == 1 then words[0]
    else words[0] + sep + Join(words[1..], sep)
  }

  /** The join holds the words in order with one `sep` between
      neighbours, so with a whitespace separator its non-whitespace
      characters are those of the words laid end to end. */
  lemma {:induction false} JoinContent(words: seq<string>, sep: string)
    ensures |words| > 0 ==> |Join(words, sep)| == |Flatten(words)| + (|words| - 1) * |sep|
    ensures AllSpace(sep) ==> RemoveWs(Join(words, sep)) == RemoveWs(Flatten(words))
  {
    if |words| == 1 {
      assert Flatten(words) == words[0] + Flatten(words[1..]);
      assert words[0] + [] == words[0];
    } else if |words| > 1 {
      var w := words[0];
      var rest := Join(words[1..], sep);
      JoinContent(words[1..], sep);
      assert Flatten(words) == w + Flatten(words[1..]);
      assert Join(words, sep) == (w + sep) + rest;
      RemoveWsAppend(w + sep, rest);
      RemoveWsAppend(w, sep);
      RemoveWsAppend(w, Flatten(words[1..]));
      if AllSpace(sep) {
        RemoveWsOfAllSpace(sep);
      }
    }
  }

  /** Python's `s.split(sep)` for a one-character separator: every
      separator cuts, so empty pieces are kept and the result is never
      empty; joining the pieces back gives `s`. */
  function Split(s: string, sep: char): (r: seq<string>)
    ensures |r| >= 1
    ensures forall k | 0 <= k < |r| :: sep !in r[k]
    ensures Join(r, [sep]) == s
    decreases |s|
  {
    if |s| == 0 then [""]
    else
      var rest := Split(s[1..], sep);
      if s[0] == sep then
        assert [sep] + Join(rest, [sep]) == s;
        [""] + rest
      else
        assert [s[0]] + Join(rest, [sep]) == s;
        [[s[0]] + rest[0]] + rest[1..]
  }

  lemma {:induction false} SplitNoSeparator(w: string, sep: char)
    requires sep !in w
    ensures Split(w, sep) == [w]
  {
    if |w| > 0 {
      SplitNoSeparator(w[1..], sep);
      assert [w[0]] + w[1..] == w;
    }
  }

  lemma {:induction false} SplitAfterWord(w: string, sep: char, t: string)
    requires sep !in w
    ensures Split(w + [sep] + t, sep) == [w] + Split(t, sep)
  {
    if |w| == 0 {
      assert w + [sep] + t == [sep] + t;
      assert ([sep] + t)[1..] == t;
    } else {
      assert (w + [sep] + t)[1..] == w[1..] + [sep] + t;
      SplitAfterWord(w[1..], sep, t);
      assert [w[0]] + w[1..] == w;
    }
  }

  /** A join of non-empty words starts with the first word's first
      character and ends with the last word's last character. */
  lemma {:induction false} JoinEnds(words: seq<string>, sep: string)
    requires |words| > 0
    requires forall k | 0 <= k < |words| :: |words[k]| > 0
    ensures var j := Join(words, sep); var last := words[|words| - 1];
            |j| > 0 && j[0] == words[0][0] && j[|j| - 1] == last[|last| - 1]
  {
    if |words| > 1 {
      var rest := words[1..];
      assert forall k | 0 <= k < |rest| :: rest[k] == words[k + 1];
      JoinEnds(rest, sep);
      var tail := Join(rest, sep);
      assert Join(words, sep) == (words[0] + sep) + tail;
    }
  }

  /** The converse of `Split`'s round trip: splitting a join of
      separator-free pieces gives the pieces back. */
  lemma {:induction false} SplitOfJoin(words: seq<string>, sep: char)
    requires |words| >= 1
    requires forall k | 0 <= k < |words| :: sep !in words[k]
    ensures Split(Join(words, [sep]), sep) == words
  {
    if |words| == 1 {
      SplitNoSeparator(words[0], sep);
    } else {
      SplitOfJoin(words[1..], sep);
      SplitAfterWord(words[0], sep, Join(words[1..], [sep]));
    }
  }

  /** The number of leading whitespace characters of `s`. */
  function LeadingSpaces(s: string): (n: nat)
    ensures n <= |s|
    ensures n < |s| ==> !IsSpace(s[n])
  {
    if |s| > 0 && IsSpace(s[0]) then 1 + LeadingSpaces(s[1..]) else 0
  }

  lemma {:induction false} LeadingSpacesAreSpaces(s: string)
    ensures forall k | 0 <= k < LeadingSpaces(s) :: IsSpace(s[k])
  {
    if |s| > 0 && IsSpace(s[0]) {
      LeadingSpacesAreSpaces(s[1..]);
    }
  }

  /** The length of `s` without its trailing whitespace. */
  function TrailingStart(s: string): (n: nat)
    ensures n <= |s|
    ensures n > 0 ==> !IsSpace(s[n - 1])
  {
    if |s| > 0 && IsSpace(s[|s| - 1]) then TrailingStart(s[..|s| - 1]) else |s|
  }

  lemma {:induction false} TrailingSpacesAreSpaces(s: string)
    ensures forall k | TrailingStart(s) <= k < |s| :: IsSpace(s[k])
  {
    if |s| > 0 && IsSpace(s[|s| - 1]) {
      TrailingSpacesAreSpaces(s[..|s| - 1]);
    }
  }

  /** The length of the longest whitespace-free prefix of `s`. */
  function WordLength(s: string): (n: nat)
    ensures n <= |s|
    ensures n < |s| ==> IsSpace(s[n])
  {
    if |s| > 0 && !IsSpace(s[0]) then 1 + WordLength(s[1..]) else 0
  }

  lemma {:induction false} WordIsSpaceFree(s: string)
    ensures forall k | 0 <= k < WordLength(s) :: !IsSpace(s[k])
  {
    if |s| > 0 && !IsSpace(s[0]) {
      WordIsSpaceFree(s[1..]);
    }
  }

  /** Deleting whitespace from `s` is the same as deleting it from the part
      of `s` between a whitespace prefix and a whitespace suffix. */
  lemma {:induction false} RemoveWsMiddle(s: string, i: nat, j: nat)
    requires i <= j <= |s|
    requires forall k | 0 <= k < i :: IsSpace(s[k])
    requires forall k | j <= k < |s| :: IsSpace(s[k])
    ensures RemoveWs(s[i..j]) == RemoveWs(s)
  {
    assert s == s[..i] + s[i..j] + s[j..];
    RemoveWsAppend(s[..i] + s[i..j], s[j..]);
    RemoveWsAppend(s[..i], s[i..j]);
    RemoveWsOfAllSpace(s[..i]);
    RemoveWsOfAllSpace(s[j..]);
  }

  /** `s[i..j]` is surrounded by whitespace only: everything before `i`
      and everything from `j` on is whitespace. */
  predicate SpaceOutside(s: string, i: nat, j: nat)
  {
    && i <= j <= |s|
    && (forall k | 0 <= k < i :: IsSpace(s[k]))
    && (forall k | j <= k < |s| :: IsSpace(s[k]))
  }

  /** Python's `s.strip()`: the result starts and ends with a non-space,
      keeps every non-whitespace character, and a string that already
      starts and ends with a non-space comes back unchanged. `StripSlice`
      adds that it is a slice of `s` with only whitespace around it. */
  function Strip(s: string): (r: string)
    ensures |r| > 0 ==> !IsSpace(r[0]) && !IsSpace(r[|r| - 1])
    ensures RemoveWs(r) == RemoveWs(s)
    ensures (|s| == 0 || (!IsSpace(s[0]) && !IsSpace(s[|s| - 1]))) ==> r == s
    ensures NoSpace(s) ==> r == s
  {
    var i := LeadingSpaces(s);
    var j := TrailingStart(s);
    LeadingSpacesAreSpaces(s);
    TrailingSpacesAreSpaces(s);
    if j <= i then
      RemoveWsMiddle(s, i, i);
      ""
    else
      RemoveWsMiddle(s, i, j);
      assert |s| > 0 && !IsSpace(s[0]) && !IsSpace(s[|s| - 1]) ==> i == 0 && j == |s| && s[i..j] == s;
      s[i..j]
  }

  /** `strip()` removes exactly the two end runs: its result is a slice of
      `s` with only whitespace before and after it, so whitespace inside
      the text is kept. */
  lemma StripSlice(s: string)
    ensures exists i: nat, j: nat :: SpaceOutside(s, i, j) && Strip(s) == s[i..j]
  {
    var i := LeadingSpaces(s);
    var j := TrailingStart(s);
    LeadingSpacesAreSpaces(s);
    TrailingSpacesAreSpaces(s);
    if j <= i {
      assert SpaceOutside(s, i, i) && Strip(s) == s[i..i];
    } else {
      assert SpaceOutside(s, i, j) && Strip(s) == s[i..j];
    }
  }

  /** `s` without its leading whitespace. */
  function TrimLeft(s: string): string
  {
    s[LeadingSpaces(s)..]
  }

  /** Python's `s.split()` with no argument: skip the leading whitespace,
      take the longest whitespace-free word, repeat. */
  function SplitWs(s: string): seq<string>
    decreases |s|
  {
    var t := TrimLeft(s);
    if |t| == 0 then []
    else
      var n := WordLength(t);
      [t[..n]] + SplitWs(t[n..])
  }

  /** Trimming twice is trimming once. */
  lemma {:induction false} TrimLeftTrimmed(s: string)
    ensures TrimLeft(TrimLeft(s)) == TrimLeft(s)
    ensures |TrimLeft(s)| > 0 ==> !IsSpace(TrimLeft(s)[0])
  {
    var t := TrimLeft(s);
    if |t| > 0 {
      assert t[0] == s[LeadingSpaces(s)];
      assert LeadingSpaces(t) == 0;
      assert t[0..] == t;
    } else {
      assert LeadingSpaces(t) == 0;
    }
  }

  /** One step of `str.split()`: the first word and the text after it. */
  lemma {:induction false} SplitWsStep(s: string, t: string, n: nat)
    requires t == TrimLeft(s) && |t| > 0
    requires n == WordLength(t)
    ensures 0 < n <= |t| && !IsSpace(t[0])
    ensures SplitWs(s) == [t[..n]] + SplitWs(t[n..])
  {
    TrimLeftTrimmed(s);
  }

  /** The first word of `s` holds the non-whitespace characters of `s` up
      to the text after it. */
  lemma {:induction false} FirstWord(s: string, t: string, n: nat)
    requires t == TrimLeft(s) && |t| > 0
    requires n == WordLength(t)
    ensures NoSpace(t[..n])
    ensures RemoveWs(s) == t[..n] + RemoveWs(t[n..])
  {
    var i := LeadingSpaces(s);
    var w := t[..n];
    LeadingSpacesAreSpaces(s);
    WordIsSpaceFree(t);
    forall k | 0 <= k < n ensures !IsSpace(w[k]) {
      assert w[k] == t[k];
    }
    RemoveWsOfNoSpace(w);
    RemoveWsMiddle(s, i, |s|);
    assert s[i..|s|] == t;
    assert t == w + t[n..];
    RemoveWsAppend(w, t[n..]);
  }

  /** The words of `str.split()` are non-empty and whitespace-free, they
      hold exactly the non-whitespace characters of `s` in order, and there
      are none exactly when `s` is all whitespace. */
  lemma {:induction false} SplitWsWords(s: string)
    ensures forall k | 0 <= k < |SplitWs(s)| :: |SplitWs(s)[k]| > 0 && NoSpace(SplitWs(s)[k])
    ensures Flatten(SplitWs(s)) == RemoveWs(s)
    ensures AllSpace(s) <==> SplitWs(s) == []
    decreases |s|
  {
    var t := TrimLeft(s);
    LeadingSpacesAreSpaces(s);
    if |t| == 0 {
      RemoveWsMiddle(s, |s|, |s|);
    } else {
      var n := WordLength(t);
      var w := t[..n];
      var rest := t[n..];
      SplitWsStep(s, t, n);
      FirstWord(s, t, n);
      SplitWsWords(rest);
      WordsCons(w, SplitWs(rest), SplitWs(s));
      FlattenCons(w, SplitWs(rest));
      calc {
        Flatten(SplitWs(s));
        Flatten([w] + SplitWs(rest));
        w + Flatten(SplitWs(rest));
        w + RemoveWs(rest);
        RemoveWs(s);
      }
      assert !IsSpace(s[LeadingSpaces(s)]);
    }
  }

  /** Putting a non-empty, whitespace-free word in front keeps every word
      non-empty and whitespace-free. */
  lemma WordsCons(w: string, ws: seq<string>, r: seq<string>)
    requires r == [w] + ws && |w| > 0 && NoSpace(w)
    requires forall k | 0 <= k < |ws| :: |ws[k]| > 0 && NoSpace(ws[k])
    ensures forall k | 0 <= k < |r| :: |r[k]| > 0 && NoSpace(r[k])
  {
    forall k | 0 <= k < |r| ensures |r[k]| > 0 && NoSpace(r[k]) {
      if k > 0 {
        assert r[k] == ws[k - 1];
      }
    }
  }

  /** `str.split()` ignores leading whitespace. */
  lemma {:induction false} SplitWsAfterTrim(s: string)
    ensures SplitWs(s) == SplitWs(TrimLeft(s))
  {
    TrimLeftTrimmed(s);
  }

  /** A whitespace-free word followed by whitespace or nothing. */
  lemma {:induction false} WordLengthOf(w: string, x: string)
    requires NoSpace(w) && (|x| == 0 || IsSpace(x[0]))
    ensures WordLength(w + x) == |w|
  {
    if |w| > 0 {
      assert (w + x)[1..] == w[1..] + x;
      assert (w + x)[0] == w[0];
      WordLengthOf(w[1..], x);
    } else {
      assert w + x == x;
    }
  }

  /** `str.split()` takes a leading whitespace-free word off. */
  lemma {:induction false} SplitWsWordThen(w: string, x: string)
    requires |w| > 0 && NoSpace(w) && (|x| == 0 || IsSpace(x[0]))
    ensures SplitWs(w + x) == [w] + SplitWs(x)
  {
    var s := w + x;
    assert s[0] == w[0];
    assert LeadingSpaces(s) == 0;
    assert TrimLeft(s) == s;
    WordLengthOf(w, x);
    SplitWsStep(s, s, |w|);
    assert s[..|w|] == w && s[|w|..] == x;
  }

  /** `str.split()` skips one space before a word. */
  lemma {:induction false} SplitWsSpaceThen(j: string)
    requires |j| > 0 && !IsSpace(j[0])
    ensures SplitWs(" " + j) == SplitWs(j)
  {
    var x := " " + j;
    SplitWsAfterTrim(x);
    assert x[1..] == j;
    assert LeadingSpaces(j) == 0;
    assert LeadingSpaces(x) == 1;
  }

  lemma {:induction false} JoinHead(words: seq<string>)
    requires |words| > 1 && |words[1]| > 0
    ensures Join(words, " ") == words[0] + (" " + Join(words[1..], " "))
    ensures |Join(words[1..], " ")| > 0 && Join(words[1..], " ")[0] == words[1][0]
  {
    var j := Join(words[1..], " ");
    if |words| == 2 {
      assert j == words[1];
    } else {
      assert j == words[1] + " " + Join(words[2..], " ");
    }
  }

  /** The converse of joining with spaces: `str.split()` of non-empty,
      whitespace-free words joined by single spaces gives the words back. */
  lemma {:induction false} SplitWsOfJoin(words: seq<string>)
    requires forall k | 0 <= k < |words| :: |words[k]| > 0 && NoSpace(words[k])
    ensures SplitWs(Join(words, " ")) == words
  {
    if |words| == 1 {
      SplitWsWordThen(words[0], "");
      assert words[0] + "" == words[0];
    } else if |words| > 1 {
      var rest := words[1..];
      assert forall k | 0 <= k < |rest| :: rest[k] == words[k + 1];
      SplitWsOfJoin(rest);
      JoinHead(words);
      var j := Join(rest, " ");
      SplitWsSpaceThen(j);
      SplitWsWordThen(words[0], " " + j);
      ConsTail(words, rest);
    }
  }
}
